=== FILE: README.md ===
# Proximity text, shader frame gate and home-page accordion — a Dafny model

This project models the small amount of logic in a studio landing page.
The logic lives in three places:

- **The proximity text effect** (`VariableProximity`). Every letter of a label
  is its own span. Each span's `font-variation-settings` is interpolated
  between a "from" and a "to" setting, depending on how close the pointer is
  to the letter's centre. The model covers:
  - the settings mini-parser and the pairing of "from" and "to" axes;
  - the linear and exponential falloff curves and the interpolation;
  - the per-letter write rule and the "pointer did not move" shortcut;
  - the numbering of letters across the words of the label;
  - the `throttle` gate that limits pointer samples and resize handling.
- **The shader background** (`Threads`). The model covers:
  - the `loop` gate that renders at most 30 frames a second, never while the
    page is hidden and never in the first 300 ms;
  - the uniforms and `resize`;
  - the fragment shader's line-selection loop and its mask/alpha composition.
- **The home page** (`Home`). The model covers the mastery accordion item
  (split on `—`, trim, default outcome, open/closed toggle) and the capability
  cards (cyclic icon and outcome choice, the `0{index + 1}` number).

Numbers are Dafny `real`s. Clock times are explicit inputs. The JavaScript
built-ins the components rely on are modelled with their JavaScript meaning:
`split` with a one-character separator, `join`, `trim` (with ECMAScript's full
white-space set), `replace(/['"]/g, '')`, and `Map` (insertion-ordered,
last value wins).

Modules:

- Wrappers: `Option`.
- JsString: split/join/trim/character removal.
- JsMap: `Map` built from entries.
- Throttle: the throttle gate.
- Proximity: parsing, pairing, falloff, interpolation, one animation frame.
- LetterLayout: label render and letter indices.
- FrameGate: the `Threads` loop, uniforms and resize.
- ThreadShader: line selection and mask.
- Mastery: the accordion item.
- Capability: the capability cards.

Some behaviours of the code are easy to misread, so the model makes each one
explicit:

- The axis name has **every** `'` and `"` removed, not only the outer ones.
- A `Map` built from settings with a repeated axis keeps the axis at its first
  position but takes its **last** value.
- A value token that is missing goes to `parseFloat` as `undefined`. This is
  `None` in the model.
- The accordion shows the default outcome both when there is no `—` and when
  the text after the first `—` is empty (`""` is falsy). A blank-only segment
  is shown as an empty outcome.
- `if (!start)` treats a frame time of exactly 0 as "not yet latched", so such
  a frame does not fix `start`.
- Throttled calls that arrive while the gate is closed are dropped. They are
  not delivered later.

## Model

| member | source | states |
|---|---|---|
| Throttle.OnCall | components/VariableProximity.tsx:8-13 | a call is forwarded exactly when the gate is open; forwarding closes the gate and records the call's time; a dropped call leaves the gate untouched |
| Throttle.OnTimer | components/VariableProximity.tsx:12 | the timer callback re-opens the gate and keeps the time of the last forwarded call |
| Throttle.Step | components/VariableProximity.tsx:8-14 | a forwarded event is a call on an open gate and closes it at the call's time; a dropped call leaves the gate as it was; a timer callback forwards nothing and only re-opens the gate |
| Throttle.Run | components/VariableProximity.tsx:8-14 | over any event sequence, at most one call per event is forwarded, and every forwarded time is the time of a call event, so nothing is queued and released later |
| Throttle.ForwardedSpacing | components/VariableProximity.tsx:6-14 | with timers that fire no earlier than `limit` after they start, any two forwarded calls are at least `limit` apart, and the first is at least `limit` after the previous forwarded call |
| Throttle.OnePerWindow | components/VariableProximity.tsx:6-14 | from the initial gate, no window of `limit` ms contains two forwarded calls |
| Throttle.ComponentSpacing | components/VariableProximity.tsx:6-14 | with the component's windows (33 ms for pointer samples, 200 ms for resizes) forwarded calls are at least their own window apart, so never closer than 33 ms |
| Throttle.OpenGateForwards | components/VariableProximity.tsx:9-12 | a call on an open gate is forwarded at once, so the very first call always passes |
| Throttle.ClosedGateDrops | components/VariableProximity.tsx:9-13 | a call on a closed gate is dropped without a trace: the rest of the run is as if it had not been made |
| Proximity.UpdatePosition | components/VariableProximity.tsx:21-28 | the stored pointer position plus the container's top-left corner gives the client position; without a container the client position is stored as is |
| Proximity.SamplePoint | components/VariableProximity.tsx:31-38 | a mouse move samples its client point; a touch move samples its first touch |
| Proximity.ParseItem | components/VariableProximity.tsx:91-93 | the axis name of an item contains no quote character and no blank |
| Proximity.ItemAxisAndValue | components/VariableProximity.tsx:90-93 | for a trimmed item with a first blank, the axis is the text before it with every quote removed, and the value is `parseFloat` of the text up to the next blank or the end (so `'wght' 500 700` reads 500, and a double blank reads `parseFloat("")`) |
| Proximity.ItemWithoutValue | components/VariableProximity.tsx:90-93 | a trimmed item without a blank is all axis (quotes removed), and its value is `parseFloat(undefined)` |
| Proximity.ParseItems | components/VariableProximity.tsx:88-94 | a settings string yields one item per comma-separated piece: one more than its number of commas |
| Proximity.ParseSettings | components/VariableProximity.tsx:86-95 | the parsed settings hold each axis once |
| Proximity.PairAxes | components/VariableProximity.tsx:100-104 | one pair per "from" entry, in order, with its axis and "from" value; the "to" value is the "to" map's value for that axis when present, the "from" value otherwise |
| Proximity.PairingValues | components/VariableProximity.tsx:97-104 | an axis is animated exactly when some "from" item names it; its "from" value is the last such item's value; its "to" value is the last "to" item's value for it, or the "from" value if no "to" item names it |
| Proximity.PairingOrder | components/VariableProximity.tsx:97-104 | animated axes are pairwise distinct and ordered by the position of their first "from" item |
| Proximity.ParsedAxisPlain | components/VariableProximity.tsx:89-93 | an item taken from a comma split names an axis with no quote, blank or comma |
| Proximity.ParsedSettingsPlain | components/VariableProximity.tsx:86-95 | every settings string, even an empty one, names at least one axis, and every axis it names is plain |
| Proximity.ParsedSettings | components/VariableProximity.tsx:97-104 | the memo yields at least one axis; its axes are distinct, plain, and exactly the keys of the parsed "from" settings, in their order |
| Proximity.Configure | components/VariableProximity.tsx:64-105 | the far style is the "from" string verbatim; a missing `radius` prop is 50; the animated axes are the "from" settings' keys in order, at least one, distinct and plain |
| Proximity.ParseRendered | components/VariableProximity.tsx:86-95 | parsing a string of `'axis' value` items joined by `", "` (plain axis names, value tokens without blanks or commas, distinct axes) gives back exactly those axes and values, in order |
| Proximity.Norm | components/VariableProximity.tsx:129 | the normalised closeness lies in [0,1]; it is 1 at distance 0 or less, 0 at the radius or beyond, and in between it and distance/radius add up to 1 |
| Proximity.FalloffValue | components/VariableProximity.tsx:128-139 | the falloff lies in [0, norm] ⊆ [0,1]; it is 1 at the pointer and 0 from the radius on; the linear (default) curve equals norm and the exponential curve equals norm² |
| Proximity.FalloffMonotone | components/VariableProximity.tsx:128-139 | for both curves the falloff never increases with distance |
| Proximity.Lerp | components/VariableProximity.tsx:172 | the interpolated value equals "from" at falloff 0 and "to" at falloff 1, and lies between them for any falloff in [0,1]; between distinct endpoints, the share of the way from "from" to "to" is exactly the falloff |
| Proximity.InterpolateAxes | components/VariableProximity.tsx:170-173 | every axis keeps its name and order; each value lies between the axis's endpoints, and all values are the "from" (resp. "to") values at falloff 0 (resp. 1); every axis with distinct endpoints has moved exactly the falloff's share of the way |
| Proximity.FormatValues | components/VariableProximity.tsx:171-174 | every value is formatted, with its axis and position kept |
| Proximity.RenderItem | components/VariableProximity.tsx:173 | an item of comma-free axis and token holds no comma |
| Proximity.RenderSettings | components/VariableProximity.tsx:170-175 | no entries give the empty string; otherwise, with comma-free axes and tokens, the string holds one comma fewer than it has entries, so a comma split gives one piece per entry |
| Proximity.NearStyle | components/VariableProximity.tsx:169-175 | with at least one comma-free axis and a comma-free formatter, the near style holds one comma fewer than there are axes, so a comma split gives one piece per axis |
| Proximity.LetterWrite | components/VariableProximity.tsx:159-177 | at or beyond the radius the letter ends up with exactly the "from" string, and is written only if its style differs; inside the radius it is always written with the interpolated settings |
| Proximity.InitialLetters | components/VariableProximity.tsx:232-244 | at mount no pointer has been processed and every letter carries the "from" string |
| Proximity.Animate | components/VariableProximity.tsx:142-180 | unmounted: nothing changes and no frame is requested; pointer unchanged: no letter is touched and the last position stays; otherwise the last position becomes the pointer, letters without a centre keep their style, far letters get the "from" string, near letters the interpolated one |
| Proximity.NearStyleAtCentre | components/VariableProximity.tsx:169-175 | a letter exactly under the pointer shows every axis at its "to" value |
| Proximity.NearStyleParsesBack | components/VariableProximity.tsx:170-177 | the style written for a near letter is a valid settings string, and parsing it yields the same axes with the formatted interpolated values |
| Proximity.NearStyleAxesAndValues | components/VariableProximity.tsx:169-175 | the near style parses back to the configured axes in order, each with its formatted interpolated value |
| Proximity.ConfiguredStyleParsesBack | components/VariableProximity.tsx:85-105 | for the configuration built from the props, the near style parses back to the keys of the "from" settings, in order, each with its formatted interpolated value |
| Proximity.FirstFrameProcesses | components/VariableProximity.tsx:148-166 | the first mounted frame after mount always processes the pointer, and writes nothing to letters out of reach |
| Proximity.StillPointerIsIdle | components/VariableProximity.tsx:147-151 | a second frame with the pointer where it was is a no-op that still requests the next frame |
| LetterLayout.RenderWord | components/VariableProximity.tsx:232-250 | a word's letter spans carry its characters (Unicode scalar values) in order, numbered consecutively from the running index |
| LetterLayout.RenderLabel | components/VariableProximity.tsx:216-253 | there is one word span per blank plus one; a separator follows exactly the words that are not last; word spans hold the words; letter indices run 0..n-1 across all words; n is the number of non-blank characters (Unicode scalar values), and the letters spell the label without its blanks |
| JsString.Split | components/VariableProximity.tsx:89 | a split has one more piece than the separator has occurrences |
| JsString.SplitPieces | components/VariableProximity.tsx:89 | no piece of a split contains the separator |
| JsString.SplitKeepsOut | components/VariableProximity.tsx:89 | a character absent from a string is absent from every piece of its split |
| JsString.SplitJoin | components/VariableProximity.tsx:89 | joining a split's pieces with the separator gives the original string |
| JsString.JoinSplit | components/VariableProximity.tsx:89 | splitting a join of separator-free pieces gives the pieces back |
| JsString.SplitConcat | components/VariableProximity.tsx:216-233 | the pieces of a split, concatenated, are the string with every separator removed |
| JsString.SplitHead | pages/Home.tsx:91 | the first piece is the text before the first separator, and the remaining pieces are the split of the text after it |
| JsString.TrimSpec | components/VariableProximity.tsx:90 | the trimmed string neither starts nor ends with white space, and it is empty exactly when the input is all white space |
| JsString.TrimUnique | components/VariableProximity.tsx:90 | if a string is white space, then a core with non-blank ends, then white space, that core is the trim |
| JsString.TrimIdempotent | components/VariableProximity.tsx:90 | trimming twice is trimming once |
| JsString.TrimKeepsOut | components/VariableProximity.tsx:90 | a character absent from a string is absent from its trim |
| JsString.Without | components/VariableProximity.tsx:93 | the result has none of the removed characters and is no longer than the input |
| JsString.WithoutKeeps | components/VariableProximity.tsx:93 | every character that is not removed occurs in the result as often as in the input |
| JsMap.Set | components/VariableProximity.tsx:87-95 | keys stay distinct; setting a key that is present keeps the key order, and a new key goes last; the key then reads as the new value |
| JsMap.SetOther | components/VariableProximity.tsx:87-95 | setting one key leaves every other key reading as before |
| JsMap.FromEntries | components/VariableProximity.tsx:87-95 | a map built from entries never holds a key twice |
| JsMap.FromEntriesGet | components/VariableProximity.tsx:103 | a key reads as the value of its last entry, and as absent when no entry has it |
| JsMap.FromEntriesKeys | components/VariableProximity.tsx:100 | the map's keys are exactly the entries' keys |
| JsMap.FromEntriesOrder | components/VariableProximity.tsx:100 | the map lists its keys in order of first appearance among the entries |
| JsMap.FromDistinctEntries | components/VariableProximity.tsx:87-95 | entries with distinct keys make a map equal to the entries |
| FrameGate.Loop | components/Thread.tsx:169-179 | the next frame is always requested; a hidden page changes nothing and renders nothing; the first visible frame latches `start`, which never changes afterwards; a frame renders exactly when visible, at least 300 ms after `start` and at least 1000/30 ms after the last render; `lastFrame` moves only on a render, to that frame's time |
| FrameGate.Divide | components/Thread.tsx:154 | the aspect ratio is a number exactly when the height is positive, and then times the height gives the width; 0/0 is NaN, and a positive width over a zero height is infinite |
| FrameGate.InitialUniforms | components/Thread.tsx:139-146 | time 0, resolution (1,1,1), the given colour, amplitude and distance, and the pointer uniform at (0.5, 0.5) |
| FrameGate.Resize | components/Thread.tsx:151-155 | the resolution becomes (width, height, width/height), with the JavaScript quotient (Infinity for a positive width over height 0, NaN for 0/0), and no other uniform changes |
| FrameGate.Mount | components/Thread.tsx:139-157 | the component starts visible with a fresh gate and the initial uniforms resized to its container, aspect ratio included |
| FrameGate.Step | components/Thread.tsx:160-179 | an animation frame moves the gate and renders exactly as the loop decides, and a render sets the time uniform to the frame time in seconds and changes no other uniform; a visibility change sets `visible` to `!hidden` and changes nothing else; a resize applies `resize` to the uniforms and changes nothing else; neither renders |
| FrameGate.RenderSpacing | components/Thread.tsx:164-176 | over any event sequence, consecutive renders are at least 1000/30 ms apart, and the first is at least that far from the last frame before |
| FrameGate.StartLatches | components/Thread.tsx:172 | once set, `start` never changes; from an unlatched gate it ends up at the first visible non-zero frame time, or 0 when there is none |
| FrameGate.RendersAfterStartup | components/Thread.tsx:173 | a render implies a latched start, and every render happens at least 300 ms after it |
| FrameGate.HiddenNeverRenders | components/Thread.tsx:170-171 | while the page stays hidden nothing renders and the gate does not move |
| FrameGate.HidingStopsRenders | components/Thread.tsx:160-171 | after the page is hidden, nothing renders until a visibility change shows it again |
| FrameGate.UniformsTrackRenders | components/Thread.tsx:169-179 | over any event sequence, colour, amplitude, distance and the pointer uniform keep their values; the time uniform is the last render's time in seconds, or unchanged without renders |
| FrameGate.Run | components/Thread.tsx:160-179 | over any event sequence there are at most as many renders as events, and every render time is the time of an animation frame event |
| ThreadShader.OnlyFirstLineSkipped | components/Thread.tsx:93-95 | of the 25 lines, exactly line 0 is skipped |
| ThreadShader.Clamp01 | components/Thread.tsx:86 | a line's coverage lies in [0,1] and equals its raw value when that is already in range |
| ThreadShader.Factor | components/Thread.tsx:95-96 | each line's factor lies in [0,1], and is 1 for a skipped line |
| ThreadShader.MaskOf | components/Thread.tsx:91-103 | the mask stays in [0,1] however many lines are combined |
| ThreadShader.Composite | components/Thread.tsx:91-105 | the shader's loop computes the product of the drawn lines' factors; mask and alpha lie in [0,1] and add up to 1 |
| ThreadShader.FragColor | components/Thread.tsx:106 | the output alpha is the mask's complement; each colour channel lies between 0 and the uniform colour's channel; alpha 0 gives transparent black and alpha 1 the full colour; for any positive alpha each channel divided by alpha is the uniform colour's channel (premultiplied colour) |
| ThreadShader.FirstLineIgnored | components/Thread.tsx:94-95 | the coverage of line 0 has no influence on the mask |
| ThreadShader.UncoveredIsTransparent | components/Thread.tsx:91-105 | a pixel no line covers has mask 1, so alpha 0 |
| ThreadShader.FullCoverageIsOpaque | components/Thread.tsx:96-105 | a pixel fully covered by a drawn line has mask 0, so alpha 1 |
| ThreadShader.CoverageMonotone | components/Thread.tsx:96-105 | more coverage on any line never raises the mask |
| Mastery.ParseSkill | pages/Home.tsx:91 | the displayed title neither starts nor ends with white space |
| Mastery.TitleBeforeFirstDash | pages/Home.tsx:105 | the title is the trimmed text before the first `—`, or the whole trimmed text when there is none |
| Mastery.NoDashDefaultOutcome | pages/Home.tsx:119 | without a `—` the outcome is the fixed default sentence |
| Mastery.OutcomeIsSecondSegment | pages/Home.tsx:119 | the outcome is the trimmed text between the first `—` and the next `—` (or the end); it is the default sentence when that text is empty |
| Mastery.SplitAtDash | pages/Home.tsx:91 | a dash after a dash-free prefix separates that prefix as the first piece |
| Mastery.LaterSegmentsIgnored | pages/Home.tsx:91 | anything from a second `—` on is ignored |
| Mastery.Toggle | pages/Home.tsx:93-95 | a click flips the open state |
| Mastery.ToggleTwice | pages/Home.tsx:93-95 | two clicks restore any state |
| Mastery.OpenAfterOddClicks | pages/Home.tsx:90-95 | starting closed, the item is open exactly after an odd number of clicks |
| Mastery.View | pages/Home.tsx:98-122 | `aria-expanded` and the panel's expansion both mirror the open state; the item shows the parsed title and outcome |
| Capability.CardIcon | pages/Home.tsx:50 | the icon index is always in bounds, and the first three cards take the icons in list order |
| Capability.CardOutcome | pages/Home.tsx:61 | the outcome index is always in bounds, and the first three cards take the outcomes in list order |
| Capability.CyclesEveryThree | pages/Home.tsx:34-61 | icons and outcomes repeat with period 3 and are chosen by `index % 3` |
| Capability.Decimal | pages/Home.tsx:54 | the numeral of a number is a non-empty digit string without a leading zero (for positive numbers) |
| Capability.DecimalValue | pages/Home.tsx:54 | a numeral reads back as the number it was printed from |
| Capability.CardNumber | pages/Home.tsx:54 | the card number is `0` followed by the numeral of `index + 1`: all digits, a zero, then a digit string that starts with a non-zero digit and reads back as `index + 1` |
| Capability.CardNumbersDistinct | pages/Home.tsx:54 | different cards show different numbers |

## Left out

- The Gaussian falloff (`Math.exp`) is not modelled. Only the linear curve
  (also the `default` branch) and the exponential curve are.
- `Math.sqrt` distances are not computed. `Proximity.Animate` takes each
  letter's distance to the pointer as a non-negative input.
- `calculateLetterCenters` and every `getBoundingClientRect` call are left
  out. They are browser layout.
- Proximity.ParseItem: `parseFloat` is a function parameter returning a
  real. Its `NaN` results for malformed or missing values are not modelled,
  and neither is `NaN` arithmetic in the interpolation.
- LetterLayout.RenderWord: strings are sequences of Unicode scalar values,
  while `word.split('')` splits into UTF-16 code units. A character outside
  the Basic Multilingual Plane (an emoji, say) gets two letter spans and two
  indices in the component but one in the model.
- LetterLayout.RenderLabel: its letter count and indices are over Unicode
  scalar values, for the same reason; labels made of Basic Multilingual
  Plane characters are counted as the component counts them.
- Proximity.LetterWrite: a letter's style is modelled as the last string
  written to it. The browser reads `style.fontVariationSettings` back in a
  normalised serialisation (axis names in double quotes, for instance), so
  the component's "already equal" comparison can fail where the model's
  succeeds, and a far letter may be rewritten on every processed frame.
- Proximity.NearStyleParsesBack: `toFixed(1)` is a function parameter. The
  lemma assumes it prints tokens without blanks or commas.
- Proximity.Norm: requires a positive radius. The component only evaluates
  the falloff for a distance below the radius, and distances are never
  negative, so a radius of 0 or less never reaches it.
- Throttle.ForwardedSpacing: requires a non-negative limit. Both limits the
  component uses (33 and 200 ms) are positive.
- Throttle.Legal: timer callbacks are events. The browser runs them no
  earlier than the delay, possibly later, and the model allows both. Which
  handler (pointer or resize) a throttle wraps is not modelled.
- Floating-point rounding is not modelled. This covers `t * 0.001`,
  `1000 / 30`, the mediump `float(i) / 25.0`, and the `width / height` of
  finite sizes. Reals are exact.
- The shader's `lineFn` body is not modelled: Perlin noise, `smoothstep`,
  `pow`, `mix` and the pixel-size arithmetic. Each line's pre-clamp coverage
  is an input to `ThreadShader.Composite`.
- WebGL and `ogl` renderer setup, `renderer.setSize`, the canvas, and losing
  the context on teardown are left out. They are foreign libraries.
- `requestAnimationFrame`, `setTimeout` and `clearTimeout` are not modelled,
  nor are event listener registration and removal. Frames, timer callbacks,
  visibility changes and resizes are explicit events instead.
- In `Proximity.Animate`, `mounted` combines "the container exists" and "the
  effect is still active". Unmounting itself is not modelled.
- Letter elements that are `null` are not modelled: every rendered letter has
  an element.
- React rendering is not modelled, including the `motion.span` wrapper, the
  screen-reader copy of the label, class names and `memo`.
- The default props of `Threads` (white, amplitude 1, distance 0) are not
  modelled: `FrameGate.Mount` takes every prop as an input.
- The `Home` mount timers (100 and 300 ms), the stats list and the other page
  sections are left out. They are timing glue or static markup.
- `App.tsx`, `components/Navigation.tsx` and `vite.config.ts` are not part of
  this model. They hold page composition, static markup and build
  configuration, with no logic.

=== FILE: frame_gate.dfy ===
/** The render loop of the shader background (`Threads`): every animation
    frame reschedules itself; a frame renders only while the page is
    visible, once 300 ms have passed since the first visible frame, and at
    most 30 times a second. Rendering sets the shader's time uniform. */
module FrameGate {

  const FramesPerSecond: real := 30.0
  /** `FRAME = 1000 / FPS` milliseconds. */
  const FrameInterval: real := 1000.0 / FramesPerSecond
  const StartupDelay: real := 300.0

  // ---------------------------------------------------------------------------
  // The frame gate

  /** `start` and `lastFrame`, both 0 at mount; 0 for `start` means "not yet
      latched" (`if (!start)`). */
  datatype Gate = Gate(start: real, lastFrame: real)

  const InitialGate := Gate(0.0, 0.0)

  datatype Tick = Tick(gate: Gate, render: bool, rescheduled: bool)

  /** `loop(t)` on a page that is `visible` or not. */
  function Loop(g: Gate, visible: bool, t: real): (r: Tick)
    ensures r.rescheduled
    ensures !visible ==> r.gate == g && !r.render
    ensures visible && g.start == 0.0 ==> r.gate.start == t
    ensures g.start != 0.0 ==> r.gate.start == g.start
    ensures r.render <==> visible && t - r.gate.start >= StartupDelay && t - g.lastFrame >= FrameInterval
    ensures r.render ==> r.gate.lastFrame == t && g.start != 0.0
    ensures !r.render ==> r.gate.lastFrame == g.lastFrame
  {
    if !visible then Tick(g, false, true)
    else
      var start := if g.start == 0.0 then t else g.start;
      if t - start < StartupDelay then Tick(Gate(start, g.lastFrame), false, true)
      else if t - g.lastFrame < FrameInterval then Tick(Gate(start, g.lastFrame), false, true)
      else Tick(Gate(start, t), true, true)
  }

  // ---------------------------------------------------------------------------
  // Uniforms

  /** `width / height` in floating point for sizes that are never negative:
      a number when the height is positive, infinity for a positive width
      over a zero height, NaN for 0 / 0. */
  datatype Ratio = Finite(value: real) | Infinite | NotANumber

  function Divide(width: real, height: real): (q: Ratio)
    requires width >= 0.0 && height >= 0.0
    ensures q.Finite? <==> height > 0.0
    ensures q.Finite? ==> q.value * height == width
    ensures q.NotANumber? <==> width == 0.0 && height == 0.0
  {
    if height > 0.0 then Finite(width / height)
    else if width > 0.0 then Infinite
    else NotANumber
  }

  datatype Resolution = Resolution(width: real, height: real, aspect: Ratio)
  datatype Rgb = Rgb(r: real, g: real, b: real)
  datatype Vec2 = Vec2(x: real, y: real)

  datatype Uniforms = Uniforms(
    iTime: real,
    iResolution: Resolution,
    uColor: Rgb,
    uAmplitude: real,
    uDistance: real,
    uMouse: Vec2)

  /** The uniforms the program is created with. */
  function InitialUniforms(color: Rgb, amplitude: real, distance: real): (u: Uniforms)
    ensures u.iTime == 0.0
    ensures u.iResolution == Resolution(1.0, 1.0, Finite(1.0))
    ensures u.uColor == color && u.uAmplitude == amplitude && u.uDistance == distance
    ensures u.uMouse == Vec2(0.5, 0.5)
  {
    Uniforms(0.0, Resolution(1.0, 1.0, Finite(1.0)), color, amplitude, distance, Vec2(0.5, 0.5))
  }

  /** `resize`: the resolution uniform takes the container's size and aspect
      ratio; nothing else changes. */
  function Resize(u: Uniforms, width: real, height: real): (r: Uniforms)
    requires width >= 0.0 && height >= 0.0
    ensures r.iResolution.width == width && r.iResolution.height == height
    ensures r.iResolution.aspect.Finite? ==> r.iResolution.aspect.value * height == width
    ensures r.iResolution.aspect.Finite? <==> height > 0.0
    ensures r.iResolution.aspect == Divide(width, height)
    ensures r.(iResolution := u.iResolution) == u
  {
    u.(iResolution := Resolution(width, height, Divide(width, height)))
  }

  // ---------------------------------------------------------------------------
  // The mounted component

  datatype Threads = Threads(gate: Gate, visible: bool, uniforms: Uniforms)

  /** Mounting: the initial uniforms, resized once to the container, a
      visible page and a fresh gate. */
  function Mount(color: Rgb, amplitude: real, distance: real, width: real, height: real): (s: Threads)
    requires width >= 0.0 && height >= 0.0
    ensures s.gate == InitialGate && s.visible
    ensures s.uniforms.iResolution.width == width && s.uniforms.iResolution.height == height
    ensures s.uniforms.iResolution.aspect == Divide(width, height)
    ensures s.uniforms.(iResolution := Resolution(1.0, 1.0, Finite(1.0))) == InitialUniforms(color, amplitude, distance)
  {
    Threads(InitialGate, true, Resize(InitialUniforms(color, amplitude, distance), width, height))
  }

  /** What reaches the component: animation frames, visibility changes and
      window resizes (with the container's new size). */
  datatype Event =
    | AnimationFrame(t: real)
    | VisibilityChange(hidden: bool)
    | WindowResize(width: real, height: real)

  predicate ValidEvent(e: Event) {
    e.WindowResize? ==> e.width >= 0.0 && e.height >= 0.0
  }

  datatype StepResult = StepResult(state: Threads, rendered: bool)

  function Step(s: Threads, e: Event): (r: StepResult)
    requires ValidEvent(e)
    ensures r.rendered ==> e.AnimationFrame? && r.state.uniforms == s.uniforms.(iTime := e.t * 0.001)
    ensures !r.rendered && !e.WindowResize? ==> r.state.uniforms == s.uniforms
    ensures e.AnimationFrame? ==>
      r.state.gate == Loop(s.gate, s.visible, e.t).gate && r.state.visible == s.visible
      && r.rendered == Loop(s.gate, s.visible, e.t).render
    ensures e.VisibilityChange? ==> r.state == s.(visible := !e.hidden) && !r.rendered
    ensures e.WindowResize? ==>
      r.state == s.(uniforms := Resize(s.uniforms, e.width, e.height)) && !r.rendered
  {
    match e
    case AnimationFrame(t) =>
      var tick := Loop(s.gate, s.visible, t);
      var u := if tick.render then s.uniforms.(iTime := t * 0.001) else s.uniforms;
      StepResult(Threads(tick.gate, s.visible, u), tick.render)
    case VisibilityChange(hidden) =>
      StepResult(s.(visible := !hidden), false)
    case WindowResize(w, h) =>
      StepResult(s.(uniforms := Resize(s.uniforms, w, h)), false)
  }

  datatype Trace = Trace(state: Threads, renders: seq<real>)

  /** The final state and the times of the rendered frames. */
  function Run(s: Threads, events: seq<Event>): (tr: Trace)
    requires forall i :: 0 <= i < |events| ==> ValidEvent(events[i])
    ensures |tr.renders| <= |events|
    ensures forall x :: x in tr.renders ==> AnimationFrame(x) in events
    decreases |events|
  {
    if |events| == 0 then Trace(s, [])
    else
      var r := Step(s, events[0]);
      var rest := Run(r.state, events[1..]);
      assert forall x :: x in rest.renders ==> AnimationFrame(x) in events[1..];
      if r.rendered then Trace(rest.state, [events[0].t] + rest.renders) else rest
  }

  /** Reference reading of the latched start: the time of the first animation
      frame that arrives on a visible page with a non-zero timestamp, or 0. */
  function FirstLatch(visible: bool, events: seq<Event>): real
    decreases |events|
  {
    if |events| == 0 then 0.0
    else match events[0]
      case AnimationFrame(t) =>
        if visible && t != 0.0 then t else FirstLatch(visible, events[1..])
      case VisibilityChange(hidden) => FirstLatch(!hidden, events[1..])
      case WindowResize(_, _) => FirstLatch(visible, events[1..])
  }

  predicate AllValid(events: seq<Event>) {
    forall i :: 0 <= i < |events| ==> ValidEvent(events[i])
  }

  /** Consecutive renders are at least a frame interval apart, and the first
      comes at least a frame interval after the last frame before them. */
  lemma {:induction false} RenderSpacing(s: Threads, events: seq<Event>)
    requires AllValid(events)
    ensures |Run(s, events).renders| > 0 ==> Run(s, events).renders[0] >= s.gate.lastFrame + FrameInterval
    ensures forall i :: 0 <= i < |Run(s, events).renders| - 1 ==>
      Run(s, events).renders[i + 1] >= Run(s, events).renders[i] + FrameInterval
    decreases |events|
  {
    if |events| > 0 {
      var r := Step(s, events[0]);
      RenderSpacing(r.state, events[1..]);
      var rest := Run(r.state, events[1..]).renders;
      if r.rendered {
        var rs := [events[0].t] + rest;
        assert Run(s, events).renders == rs;
        forall i | 0 <= i < |rs| - 1 ensures rs[i + 1] >= rs[i] + FrameInterval {
          if i > 0 { assert rs[i] == rest[i - 1] && rs[i + 1] == rest[i]; }
        }
      } else {
        assert r.state.gate.lastFrame == s.gate.lastFrame;
      }
    }
  }

  /** `start` latches to the first visible non-zero frame time and never
      changes afterwards. */
  lemma {:induction false} StartLatches(s: Threads, events: seq<Event>)
    requires AllValid(events)
    ensures s.gate.start != 0.0 ==> Run(s, events).state.gate.start == s.gate.start
    ensures s.gate.start == 0.0 ==> Run(s, events).state.gate.start == FirstLatch(s.visible, events)
    decreases |events|
  {
    if |events| > 0 {
      var r := Step(s, events[0]);
      StartLatches(r.state, events[1..]);
    }
  }

  /** No frame renders within 300 ms of the latched start. */
  lemma {:induction false} RendersAfterStartup(s: Threads, events: seq<Event>)
    requires AllValid(events)
    ensures |Run(s, events).renders| > 0 ==> Run(s, events).state.gate.start != 0.0
    ensures forall i :: 0 <= i < |Run(s, events).renders| ==>
      Run(s, events).renders[i] >= Run(s, events).state.gate.start + StartupDelay
    decreases |events|
  {
    if |events| > 0 {
      var r := Step(s, events[0]);
      RendersAfterStartup(r.state, events[1..]);
      if r.rendered {
        StartLatches(r.state, events[1..]);
        var rest := Run(r.state, events[1..]).renders;
        assert Run(s, events).renders == [events[0].t] + rest;
      }
    }
  }

  /** While the page stays hidden nothing renders and the gate stands still. */
  lemma {:induction false} HiddenNeverRenders(s: Threads, events: seq<Event>)
    requires AllValid(events) && !s.visible
    requires forall i :: 0 <= i < |events| ==> !events[i].VisibilityChange?
    ensures Run(s, events).renders == []
    ensures Run(s, events).state.gate == s.gate
    decreases |events|
  {
    if |events| > 0 {
      HiddenNeverRenders(Step(s, events[0]).state, events[1..]);
    }
  }

  /** Once the page is hidden nothing renders until it is shown again. */
  lemma HidingStopsRenders(s: Threads, events: seq<Event>)
    requires AllValid(events)
    requires forall i :: 0 <= i < |events| ==> !events[i].VisibilityChange?
    ensures Run(s, [VisibilityChange(true)] + events).renders == []
  {
    assert ([VisibilityChange(true)] + events)[1..] == events;
    HiddenNeverRenders(s.(visible := false), events);
  }

  /** The loop changes no uniform but the time, which is the last rendered
      frame's time in seconds; the pointer uniform keeps its value. */
  lemma {:induction false} UniformsTrackRenders(s: Threads, events: seq<Event>)
    requires AllValid(events)
    ensures Run(s, events).state.uniforms.uMouse == s.uniforms.uMouse
    ensures Run(s, events).state.uniforms.uColor == s.uniforms.uColor
    ensures Run(s, events).state.uniforms.uAmplitude == s.uniforms.uAmplitude
    ensures Run(s, events).state.uniforms.uDistance == s.uniforms.uDistance
    ensures |Run(s, events).renders| == 0 ==> Run(s, events).state.uniforms.iTime == s.uniforms.iTime
    ensures |Run(s, events).renders| > 0 ==>
      Run(s, events).state.uniforms.iTime == Run(s, events).renders[|Run(s, events).renders| - 1] * 0.001
    decreases |events|
  {
    if |events| > 0 {
      var r := Step(s, events[0]);
      UniformsTrackRenders(r.state, events[1..]);
    }
  }
}

=== FILE: home_capability.dfy ===
/** The capability cards of the home page: card `index` takes its icon and
    its outcome line cyclically from lists of three, and shows the number
    `0` followed by `index + 1`. */
module Capability {

  datatype Icon = Terminal | Layout | Trophy

  const Icons: seq<Icon> := [Terminal, Layout, Trophy]
  const Outcomes: seq<string> := [
    "Accelerated Speed-to-Market",
    "Enhanced User Satisfaction",
    "Increased Operational Efficiency"]

  /** `icons[index % icons.length]`. */
  function CardIcon(index: nat): (icon: Icon)
    ensures icon in Icons
    ensures index < |Icons| ==> icon == Icons[index]
  {
    Icons[index % |Icons|]
  }

  /** `outcomes[index % outcomes.length]`. */
  function CardOutcome(index: nat): (outcome: string)
    ensures outcome in Outcomes
    ensures index < |Outcomes| ==> outcome == Outcomes[index]
  {
    Outcomes[index % |Outcomes|]
  }

  /** Icons and outcomes repeat every three cards, and icon and outcome stay
      paired. */
  lemma CyclesEveryThree(index: nat)
    ensures CardIcon(index + 3) == CardIcon(index)
    ensures CardOutcome(index + 3) == CardOutcome(index)
    ensures CardIcon(index) == Icons[index % 3] && CardOutcome(index) == Outcomes[index % 3]
  {
  }

  // ---------------------------------------------------------------------------
  // Card numbers

  predicate IsDigit(c: char) { '0' as int <= c as int <= '9' as int }

  function DigitChar(d: nat): (c: char)
    requires d < 10
    ensures IsDigit(c) && c as int - '0' as int == d
  {
    ('0' as int + d) as char
  }

  /** The decimal numeral JavaScript prints for an array index (below 1e21,
      beyond which it switches to exponential notation). */
  function Decimal(n: nat): (s: string)
    ensures |s| >= 1 && forall i :: 0 <= i < |s| ==> IsDigit(s[i])
    ensures n > 0 ==> s[0] != '0'
  {
    if n < 10 then [DigitChar(n)] else Decimal(n / 10) + [DigitChar(n % 10)]
  }

  /** The number a string of digits denotes. */
  function ValueOf(s: string): nat
    requires forall i :: 0 <= i < |s| ==> IsDigit(s[i])
  {
    if |s| == 0 then 0 else
      assert IsDigit(s[|s| - 1]);
      10 * ValueOf(s[..|s| - 1]) + (s[|s| - 1] as int - '0' as int)
  }

  lemma {:induction false} DecimalValue(n: nat)
    ensures ValueOf(Decimal(n)) == n
  {
    if n >= 10 {
      DecimalValue(n / 10);
      var s := Decimal(n);
      assert s[..|s| - 1] == Decimal(n / 10);
    }
  }

  /** The label `0{index + 1}`. */
  function CardNumber(index: nat): (numeral: string)
    ensures |numeral| >= 2 && numeral[0] == '0'
    ensures forall i :: 0 <= i < |numeral| ==> IsDigit(numeral[i])
    ensures numeral[1] != '0' && ValueOf(numeral[1..]) == index + 1
  {
    DecimalValue(index + 1);
    var numeral := "0" + Decimal(index + 1);
    assert numeral[1..] == Decimal(index + 1);
    numeral
  }

  /** Different cards carry different numbers. */
  lemma CardNumbersDistinct(i: nat, j: nat)
    requires i != j
    ensures CardNumber(i) != CardNumber(j)
  {
  }
}

=== FILE: home_mastery.dfy ===
/** One item of the "mastery" accordion on the home page: a skill string
    `"title — outcome"`, shown as its title with a collapsible outcome. */
module Mastery {
  import opened JsString

  const EmDash: char := '\U{2014}'
  const DefaultOutcome: string := "Optimized for extreme performance and long-term maintainability."

  datatype Skill = Skill(title: string, outcome: string)

  /** `const [tech, outcome] = skill.split('—')`; the title is `tech.trim()`,
      the outcome `outcome ? outcome.trim() : default` (an absent or empty
      second segment both read as false). */
  function ParseSkill(skill: string): (s: Skill)
    ensures s.title != [] ==> !IsWhiteSpace(s.title[0]) && !IsWhiteSpace(s.title[|s.title| - 1])
  {
    var parts := Split(skill, EmDash);
    var title := Trim(parts[0]);
    TrimSpec(parts[0]);
    Skill(title, if |parts| > 1 && parts[1] != "" then Trim(parts[1]) else DefaultOutcome)
  }

  /** The title is the trimmed text before the first dash (all of the text
      when there is none). */
  lemma TitleBeforeFirstDash(skill: string, i: nat)
    requires i <= |skill| && EmDash !in skill[..i] && (i == |skill| || skill[i] == EmDash)
    ensures ParseSkill(skill).title == Trim(skill[..i])
  {
    SplitHead(skill, EmDash, i);
  }

  /** Without a dash, the outcome is the default sentence. */
  lemma NoDashDefaultOutcome(skill: string)
    requires EmDash !in skill
    ensures ParseSkill(skill).outcome == DefaultOutcome
  {
    assert Count(skill, EmDash) == 0 by { NoOccurrence(skill, EmDash); }
  }

  /** With a first dash at `i` and the next dash (or the end) at `j`, the
      outcome is the trimmed text between them, or the default sentence when
      that text is empty. */
  lemma OutcomeIsSecondSegment(skill: string, i: nat, j: nat)
    requires i < j <= |skill| && skill[i] == EmDash && EmDash !in skill[..i]
    requires EmDash !in skill[i + 1..j] && (j == |skill| || skill[j] == EmDash)
    ensures ParseSkill(skill).outcome == if j == i + 1 then DefaultOutcome else Trim(skill[i + 1..j])
  {
    SplitHead(skill, EmDash, i);
    var rest := skill[i + 1..];
    assert rest[..j - i - 1] == skill[i + 1..j];
    SplitHead(rest, EmDash, j - i - 1);
    var parts := Split(skill, EmDash);
    assert parts[1] == parts[1..][0] == skill[i + 1..j];
    assert |skill[i + 1..j]| == j - i - 1;
  }

  /** The pieces of `a — rest` when `a` holds no dash. */
  lemma SplitAtDash(a: string, rest: string)
    requires EmDash !in a
    ensures Split(a + [EmDash] + rest, EmDash) == [a] + Split(rest, EmDash)
  {
    SplitPrefix(a, [EmDash] + rest, EmDash);
    assert a + [EmDash] + rest == a + ([EmDash] + rest);
    assert ([EmDash] + rest)[0] == EmDash && ([EmDash] + rest)[1..] == rest;
    assert Split([EmDash] + rest, EmDash) == [""] + Split(rest, EmDash);
    assert a + "" == a;
  }

  /** `a — b — c` reads as `a — b`: segments after the second are ignored. */
  lemma LaterSegmentsIgnored(a: string, b: string, c: string)
    requires EmDash !in a && EmDash !in b
    ensures ParseSkill(a + [EmDash] + b + [EmDash] + c) == ParseSkill(a + [EmDash] + b)
  {
    SplitAtDash(b, c);
    assert a + [EmDash] + b + [EmDash] + c == a + [EmDash] + (b + [EmDash] + c);
    SplitAtDash(a, b + [EmDash] + c);
    SplitPrefix(b, "", EmDash);
    assert b + "" == b;
    SplitAtDash(a, b);
  }

  // ---------------------------------------------------------------------------
  // Open/closed state

  datatype Accordion = Accordion(isOpen: bool)

  /** `useState(false)`. */
  const Closed := Accordion(false)

  /** `handleToggle`: `setIsOpen(prev => !prev)`. */
  function Toggle(a: Accordion): (r: Accordion)
    ensures r.isOpen != a.isOpen
  {
    Accordion(!a.isOpen)
  }

  /** The state after `n` clicks. */
  function Clicks(a: Accordion, n: nat): Accordion {
    if n == 0 then a else Toggle(Clicks(a, n - 1))
  }

  /** Two clicks restore any state. */
  lemma ToggleTwice(a: Accordion)
    ensures Toggle(Toggle(a)) == a
  {
  }

  /** Starting closed, the item is open exactly after an odd number of clicks. */
  lemma {:induction false} OpenAfterOddClicks(n: nat)
    ensures Clicks(Closed, n).isOpen <==> n % 2 == 1
  {
    if n > 0 { OpenAfterOddClicks(n - 1); }
  }

  /** What the item shows: the title, the outcome text, `aria-expanded`, and
      whether the outcome panel is expanded. */
  datatype ItemView = ItemView(title: string, outcome: string, ariaExpanded: bool, panelExpanded: bool)

  function View(skill: string, a: Accordion): (v: ItemView)
    ensures v.ariaExpanded == a.isOpen && v.panelExpanded == a.isOpen
    ensures Skill(v.title, v.outcome) == ParseSkill(skill)
  {
    var s := ParseSkill(skill);
    ItemView(s.title, s.outcome, a.isOpen, a.isOpen)
  }
}

=== FILE: js_map.dfy ===
/** The JavaScript `Map` as the components use it: a sequence of entries with
    distinct keys, kept in the order in which each key was first inserted. */
module JsMap {
  import opened Wrappers

  datatype Entry<V> = Entry(key: string, value: V)

  function Keys<V>(es: seq<Entry<V>>): (ks: seq<string>)
    ensures |ks| == |es|
    ensures forall i :: 0 <= i < |es| ==> ks[i] == es[i].key
  {
    seq(|es|, i requires 0 <= i < |es| => es[i].key)
  }

  predicate Distinct(ks: seq<string>) {
    forall i, j :: 0 <= i < j < |ks| ==> ks[i] != ks[j]
  }

  /** Position of the first occurrence of `k` in `ks`. */
  function IndexOf(ks: seq<string>, k: string): (i: nat)
    requires k in ks
    ensures i < |ks| && ks[i] == k
    ensures forall j :: 0 <= j < i ==> ks[j] != k
  {
    if ks[0] == k then 0 else 1 + IndexOf(ks[1..], k)
  }

  /** `m.get(k)`. */
  function Get<V>(m: seq<Entry<V>>, k: string): Option<V> {
    if k in Keys(m) then Some(m[IndexOf(Keys(m), k)].value) else None
  }

  /** `m.set(k, v)`: a key already present keeps its position and takes the new
      value; a new key is appended. */
  function Set<V>(m: seq<Entry<V>>, k: string, v: V): (r: seq<Entry<V>>)
    requires Distinct(Keys(m))
    ensures Distinct(Keys(r))
    ensures k in Keys(m) ==> Keys(r) == Keys(m)
    ensures k !in Keys(m) ==> Keys(r) == Keys(m) + [k]
    ensures Get(r, k) == Some(v)
  {
    if k in Keys(m) then
      var r := m[IndexOf(Keys(m), k) := Entry(k, v)];
      assert Keys(r) == Keys(m);
      r
    else
      var r := m + [Entry(k, v)];
      assert Keys(r) == Keys(m) + [k];
      r
  }

  /** Setting one key leaves every other key reading as before. */
  lemma SetOther<V>(m: seq<Entry<V>>, k: string, v: V, k': string)
    requires Distinct(Keys(m)) && k' != k
    ensures Get(Set(m, k, v), k') == Get(m, k')
  {
    if k' in Keys(m) {
      var i := IndexOf(Keys(m), k');
      assert Keys(Set(m, k, v))[i] == k';
      if k !in Keys(m) {
        IndexOfAppend(Keys(m), k, k');
      }
    }
  }

  /** `new Map(entries)`: the entries inserted one after another. */
  function FromEntries<V>(es: seq<Entry<V>>): (m: seq<Entry<V>>)
    ensures Distinct(Keys(m))
  {
    if |es| == 0 then [] else
      var last := es[|es| - 1];
      Set(FromEntries(es[..|es| - 1]), last.key, last.value)
  }

  /** Reference reading of a key in a list of entries: the value of its last
      occurrence. */
  function LastValue<V>(es: seq<Entry<V>>, k: string): Option<V> {
    if |es| == 0 then None
    else if es[|es| - 1].key == k then Some(es[|es| - 1].value)
    else LastValue(es[..|es| - 1], k)
  }

  /** A key of a map built from entries reads as the value of its last entry;
      a key without entries reads as absent. */
  lemma {:induction false} FromEntriesGet<V>(es: seq<Entry<V>>, k: string)
    ensures Get(FromEntries(es), k) == LastValue(es, k)
  {
    if |es| > 0 {
      FromEntriesGet(es[..|es| - 1], k);
      if es[|es| - 1].key != k {
        SetOther(FromEntries(es[..|es| - 1]), es[|es| - 1].key, es[|es| - 1].value, k);
      }
    }
  }

  /** The map has one entry per distinct key of the entries, no more, ... */
  lemma {:induction false} FromEntriesKeys<V>(es: seq<Entry<V>>, k: string)
    ensures k in Keys(FromEntries(es)) <==> k in Keys(es)
  {
    if |es| > 0 {
      var p := es[..|es| - 1];
      FromEntriesKeys(p, k);
      assert Keys(es) == Keys(p) + [es[|es| - 1].key];
    }
  }

  lemma IndexOfAppend(ks: seq<string>, x: string, k: string)
    requires k in ks
    ensures IndexOf(ks + [x], k) == IndexOf(ks, k)
  {
    var i := IndexOf(ks, k);
    assert (ks + [x])[i] == k;
  }

  /** ... and lists them in the order in which each key first appears. */
  lemma {:induction false} FromEntriesOrder<V>(es: seq<Entry<V>>, i: nat, j: nat)
    requires i < j < |FromEntries(es)|
    ensures Keys(FromEntries(es))[i] in Keys(es) && Keys(FromEntries(es))[j] in Keys(es)
    ensures IndexOf(Keys(es), Keys(FromEntries(es))[i]) < IndexOf(Keys(es), Keys(FromEntries(es))[j])
  {
    var n := |es|;
    var p := es[..n - 1];
    var k := es[n - 1].key;
    var mp := FromEntries(p);
    var ks := Keys(FromEntries(es));
    assert Keys(es) == Keys(p) + [k];
    if j < |mp| {
      assert ks[i] == Keys(mp)[i] && ks[j] == Keys(mp)[j];
      FromEntriesOrder(p, i, j);
      IndexOfAppend(Keys(p), k, ks[i]);
      IndexOfAppend(Keys(p), k, ks[j]);
    } else {
      assert ks[i] == Keys(mp)[i] && ks[j] == k && k !in Keys(mp);
      FromEntriesKeys(p, k);
      FromEntriesKeys(p, ks[i]);
      IndexOfAppend(Keys(p), k, ks[i]);
      assert IndexOf(Keys(es), k) == n - 1;
    }
  }

  /** Entries with distinct keys make a map holding exactly those entries. */
  lemma {:induction false} FromDistinctEntries<V>(es: seq<Entry<V>>)
    requires Distinct(Keys(es))
    ensures FromEntries(es) == es
  {
    if |es| > 0 {
      var p := es[..|es| - 1];
      assert Keys(p) == Keys(es)[..|es| - 1];
      FromDistinctEntries(p);
      assert es[|es| - 1].key !in Keys(p);
      assert es == p + [es[|es| - 1]];
    }
  }
}

=== FILE: js_string.dfy ===
/** The few `String.prototype` operations the components rely on. A string
    is a sequence of Unicode scalar values (Dafny's `char`), where JavaScript
    uses UTF-16 code units; the two agree on every character of the Basic
    Multilingual Plane. */
module JsString {

  /** The characters `String.prototype.trim` removes: the WhiteSpace and
      LineTerminator code points of the ECMAScript language specification. */
  predicate IsWhiteSpace(c: char) {
    || c == '\t' || c == '\U{B}' || c == '\U{C}' || c == ' ' || c == '\U{A0}' || c == '\U{FEFF}'
    || c == '\U{1680}' || ('\U{2000}' <= c <= '\U{200A}') || c == '\U{202F}' || c == '\U{205F}'
    || c == '\U{3000}'
    || c == '\n' || c == '\r' || c == '\U{2028}' || c == '\U{2029}'
  }

  predicate AllWhiteSpace(s: string) {
    forall i :: 0 <= i < |s| ==> IsWhiteSpace(s[i])
  }

  /** Number of occurrences of `c` in `s`. */
  function Count(s: string, c: char): nat {
    if |s| == 0 then 0 else (if s[0] == c then 1 else 0) + Count(s[1..], c)
  }

  /** `s.split(sep)` for a one-character separator: the maximal runs between
      separators, always at least one (the empty string splits into `[""]`). */
  function Split(s: string, sep: char): (parts: seq<string>)
    ensures |parts| == Count(s, sep) + 1
    decreases |s|
  {
    if |s| == 0 then [""]
    else
      var rest := Split(s[1..], sep);
      if s[0] == sep then [""] + rest
      else [[s[0]] + rest[0]] + rest[1..]
  }

  /** `parts.join(sep)`. */
  function Join(parts: seq<string>, sep: string): string {
    if |parts| == 0 then ""
    else if |parts| == 1 then parts[0]
    else parts[0] + sep + Join(parts[1..], sep)
  }

  /** Concatenation of all parts, `parts.join('')`. */
  function Concat(parts: seq<string>): string {
    if |parts| == 0 then "" else parts[0] + Concat(parts[1..])
  }

  /** A character that does not occur has count 0. */
  lemma {:induction false} NoOccurrence(s: string, c: char)
    requires c !in s
    ensures Count(s, c) == 0
    decreases |s|
  {
    if |s| > 0 { NoOccurrence(s[1..], c); }
  }

  /** Concatenating one more part appends it. */
  lemma ConcatAppend(parts: seq<string>, p: string)
    ensures Concat(parts + [p]) == Concat(parts) + p
  {
    if |parts| > 0 {
      assert (parts + [p])[1..] == parts[1..] + [p];
      ConcatAppend(parts[1..], p);
    }
  }

  /** No piece of a split contains the separator. */
  lemma {:induction false} SplitPieces(s: string, sep: char)
    ensures forall i :: 0 <= i < |Split(s, sep)| ==> sep !in Split(s, sep)[i]
    decreases |s|
  {
    if |s| > 0 {
      SplitPieces(s[1..], sep);
      var rest := Split(s[1..], sep);
      if s[0] != sep {
        assert sep !in [s[0]] + rest[0];
      }
    }
  }

  /** A character absent from a string is absent from each of its pieces. */
  lemma {:induction false} SplitKeepsOut(s: string, sep: char, c: char)
    requires c !in s
    ensures forall i :: 0 <= i < |Split(s, sep)| ==> c !in Split(s, sep)[i]
    decreases |s|
  {
    if |s| > 0 {
      assert c !in s[1..] by { assert forall x :: x in s[1..] ==> x in s; }
      SplitKeepsOut(s[1..], sep, c);
      var rest := Split(s[1..], sep);
      if s[0] != sep {
        assert c !in [s[0]] + rest[0];
      }
    }
  }

  /** `s` with every character of `drop` removed, as `s.replace(/[...]/g, '')`. */
  function Without(s: string, drop: set<char>): (r: string)
    ensures |r| <= |s|
    ensures forall i :: 0 <= i < |r| ==> r[i] !in drop
  {
    if |s| == 0 then ""
    else
      if s[0] in drop then Without(s[1..], drop) else [s[0]] + Without(s[1..], drop)
  }

  /** Removing every occurrence of a character shortens a string by its count. */
  lemma {:induction false} WithoutCount(s: string, c: char)
    ensures |Without(s, {c})| == |s| - Count(s, c)
    decreases |s|
  {
    if |s| > 0 { WithoutCount(s[1..], c); }
  }

  /** Removing characters keeps every other character as often as it was. */
  lemma {:induction false} WithoutKeeps(s: string, drop: set<char>, c: char)
    requires c !in drop
    ensures multiset(Without(s, drop))[c] == multiset(s)[c]
    decreases |s|
  {
    if |s| > 0 {
      WithoutKeeps(s[1..], drop, c);
      assert s == [s[0]] + s[1..];
    }
  }

  /** `s` without its leading white space. */
  function TrimStart(s: string): (r: string)
    ensures |r| <= |s|
  {
    if s != [] && IsWhiteSpace(s[0]) then TrimStart(s[1..]) else s
  }

  /** `s` without its trailing white space. */
  function TrimEnd(s: string): (r: string)
    ensures |r| <= |s|
  {
    if s != [] && IsWhiteSpace(s[|s| - 1]) then TrimEnd(s[..|s| - 1]) else s
  }

  /** `s.trim()`: `s` without its leading and trailing white space. */
  function Trim(s: string): string {
    TrimEnd(TrimStart(s))
  }

  // ---------------------------------------------------------------------------
  // Split and Join

  /** Joining the pieces of a split with the separator gives the string back. */
  lemma {:induction false} SplitJoin(s: string, c: char)
    ensures Join(Split(s, c), [c]) == s
    decreases |s|
  {
    if |s| > 0 {
      var rest := Split(s[1..], c);
      SplitJoin(s[1..], c);
      if s[0] != c && |rest| > 1 {
        assert Join(rest, [c]) == rest[0] + [c] + Join(rest[1..], [c]);
      }
    }
  }

  /** A leading run without separators is glued onto the first piece. */
  lemma {:induction false} SplitPrefix(a: string, t: string, c: char)
    requires c !in a
    ensures Split(a + t, c) == [a + Split(t, c)[0]] + Split(t, c)[1..]
    decreases |a|
  {
    var st := Split(t, c);
    if |a| == 0 {
      assert a + t == t && a + st[0] == st[0];
      assert st == [st[0]] + st[1..];
    } else {
      assert (a + t)[0] == a[0] && a[0] != c;
      assert (a + t)[1..] == a[1..] + t;
      SplitPrefix(a[1..], t, c);
      var rest := Split(a[1..] + t, c);
      assert rest[0] == a[1..] + st[0] && rest[1..] == st[1..];
      assert Split(a + t, c) == [[a[0]] + rest[0]] + rest[1..];
      assert [a[0]] + (a[1..] + st[0]) == a + st[0];
    }
  }

  /** Splitting a join of separator-free pieces gives the pieces back. */
  lemma {:induction false} JoinSplit(parts: seq<string>, c: char)
    requires |parts| >= 1
    requires forall i :: 0 <= i < |parts| ==> c !in parts[i]
    ensures Split(Join(parts, [c]), c) == parts
    decreases |parts|
  {
    if |parts| == 1 {
      SplitPrefix(parts[0], "", c);
      assert parts[0] + "" == parts[0];
    } else {
      var rest := Join(parts[1..], [c]);
      JoinSplit(parts[1..], c);
      SplitPrefix(parts[0], [c] + rest, c);
      assert Join(parts, [c]) == parts[0] + ([c] + rest);
      assert ([c] + rest)[0] == c && ([c] + rest)[1..] == rest;
      assert Split([c] + rest, c) == [""] + parts[1..];
      assert parts[0] + "" == parts[0];
      assert parts == [parts[0]] + parts[1..];
    }
  }

  /** The pieces of a split, put together, are the string without separators. */
  lemma {:induction false} SplitConcat(s: string, c: char)
    ensures Concat(Split(s, c)) == Without(s, {c})
    decreases |s|
  {
    if |s| > 0 {
      var rest := Split(s[1..], c);
      SplitConcat(s[1..], c);
      if s[0] != c {
        assert Concat(rest) == rest[0] + Concat(rest[1..]);
      }
    }
  }

  /** The first piece of a split is everything before the first separator. */
  lemma {:induction false} SplitHead(s: string, c: char, i: nat)
    requires i <= |s| && c !in s[..i] && (i == |s| || s[i] == c)
    ensures Split(s, c)[0] == s[..i]
    ensures i < |s| ==> Split(s, c)[1..] == Split(s[i + 1..], c)
  {
    SplitPrefix(s[..i], s[i..], c);
    assert s == s[..i] + s[i..];
    if i < |s| {
      assert s[i..] == [c] + s[i + 1..];
    }
  }

  lemma {:induction false} WithoutConcat(a: string, b: string, drop: set<char>)
    ensures Without(a + b, drop) == Without(a, drop) + Without(b, drop)
    decreases |a|
  {
    if |a| > 0 {
      assert (a + b)[0] == a[0] && (a + b)[1..] == a[1..] + b;
      WithoutConcat(a[1..], b, drop);
    } else {
      assert a + b == b;
    }
  }

  /** Removing characters a string does not contain leaves it as it is. */
  lemma {:induction false} WithoutNothing(s: string, drop: set<char>)
    requires forall i :: 0 <= i < |s| ==> s[i] !in drop
    ensures Without(s, drop) == s
    decreases |s|
  {
    if |s| > 0 {
      WithoutNothing(s[1..], drop);
      assert s == [s[0]] + s[1..];
    }
  }

  // ---------------------------------------------------------------------------
  // Trim

  /** What `TrimStart` removes is a white-space prefix, and what it keeps
      does not start with white space. */
  lemma {:induction false} TrimStartSpec(s: string)
    ensures TrimStart(s) == s[|s| - |TrimStart(s)|..]
    ensures AllWhiteSpace(s[..|s| - |TrimStart(s)|])
    ensures TrimStart(s) != [] ==> !IsWhiteSpace(TrimStart(s)[0])
    decreases |s|
  {
    if s != [] && IsWhiteSpace(s[0]) {
      TrimStartSpec(s[1..]);
      var k := |s| - |TrimStart(s)|;
      assert s[1..][|s| - 1 - |TrimStart(s)|..] == s[k..];
      forall m | 0 <= m < k ensures IsWhiteSpace(s[..k][m]) {
        if m > 0 { assert s[..k][m] == s[1..][..k - 1][m - 1]; }
      }
    }
  }

  /** What `TrimEnd` removes is a white-space suffix, and what it keeps does
      not end with white space. */
  lemma {:induction false} TrimEndSpec(s: string)
    ensures TrimEnd(s) == s[..|TrimEnd(s)|]
    ensures AllWhiteSpace(s[|TrimEnd(s)|..])
    ensures TrimEnd(s) != [] ==> !IsWhiteSpace(TrimEnd(s)[|TrimEnd(s)| - 1])
    decreases |s|
  {
    if s != [] && IsWhiteSpace(s[|s| - 1]) {
      var u := s[..|s| - 1];
      TrimEndSpec(u);
      var k := |TrimEnd(s)|;
      assert u[..k] == s[..k];
      forall m | k <= m < |s| ensures IsWhiteSpace(s[m]) {
        if m < |s| - 1 { assert s[m] == u[k..][m - k]; }
      }
    }
  }

  /** The trimmed string neither starts nor ends with white space, and it is
      empty exactly when the whole string is white space. */
  lemma TrimSpec(s: string)
    ensures Trim(s) != [] ==> !IsWhiteSpace(Trim(s)[0]) && !IsWhiteSpace(Trim(s)[|Trim(s)| - 1])
    ensures Trim(s) == [] <==> AllWhiteSpace(s)
  {
    var t := TrimStart(s);
    TrimStartSpec(s);
    TrimEndSpec(t);
    var r := TrimEnd(t);
    var k := |s| - |t|;
    if r != [] {
      assert r[0] == t[0];
      assert s[k] == t[0];
    } else {
      assert t == [];
      forall m | 0 <= m < |s| ensures IsWhiteSpace(s[m]) {
        assert s[m] == s[..k][m];
      }
    }
  }

  /** A character absent from a string is absent from its trim. */
  lemma TrimKeepsOut(s: string, c: char)
    requires c !in s
    ensures c !in Trim(s)
  {
    TrimStartSpec(s);
    var t := TrimStart(s);
    assert forall x :: x in t ==> x in s;
    TrimEndSpec(t);
    assert forall x :: x in TrimEnd(t) ==> x in t;
  }

  lemma {:induction false} TrimStartAt(s: string, i: nat)
    requires i <= |s| && AllWhiteSpace(s[..i]) && (i == |s| || !IsWhiteSpace(s[i]))
    ensures TrimStart(s) == s[i..]
    decreases i
  {
    if i > 0 {
      assert IsWhiteSpace(s[..i][0]);
      assert s[1..][..i - 1] == s[1..i];
      TrimStartAt(s[1..], i - 1);
    }
  }

  lemma {:induction false} TrimEndAt(s: string, j: nat)
    requires j <= |s| && AllWhiteSpace(s[j..]) && (j == 0 || !IsWhiteSpace(s[j - 1]))
    ensures TrimEnd(s) == s[..j]
    decreases |s| - j
  {
    if j < |s| {
      assert IsWhiteSpace(s[j..][|s| - 1 - j]);
      assert s[..|s| - 1][j..] == s[j..|s| - 1];
      TrimEndAt(s[..|s| - 1], j);
    }
  }

  /** Any split of `s` into white space, a non-empty core that neither starts
      nor ends with white space, and white space again, has `Trim(s)` as its core. */
  lemma TrimUnique(s: string, i: nat, j: nat)
    requires i < j <= |s|
    requires AllWhiteSpace(s[..i]) && AllWhiteSpace(s[j..])
    requires !IsWhiteSpace(s[i]) && !IsWhiteSpace(s[j - 1])
    ensures Trim(s) == s[i..j]
  {
    TrimStartAt(s, i);
    var t := s[i..];
    assert t[j - i..] == s[j..];
    assert t[j - i - 1] == s[j - 1];
    TrimEndAt(t, j - i);
    assert t[..j - i] == s[i..j];
  }

  /** Trimming twice is trimming once. */
  lemma TrimIdempotent(s: string)
    ensures Trim(Trim(s)) == Trim(s)
  {
    var r := Trim(s);
    TrimSpec(s);
    if r != [] {
      assert r[..0] == [] && r[|r|..] == [];
      TrimUnique(r, 0, |r|);
    }
  }
}

=== FILE: letter_layout.dfy ===
/** How the proximity text lays its label out: the label is split into words
    on single spaces; every word becomes a span holding one span per
    character, numbered consecutively across the whole label; a blank
    separator span follows every word but the last. */
module LetterLayout {
  import opened JsString

  /** One letter span, with the index under which its element is kept. */
  datatype LetterSpan = LetterSpan(index: nat, ch: char)

  /** One word span: its letters and whether a separator follows it. */
  datatype WordSpan = WordSpan(letters: seq<LetterSpan>, separator: bool)

  /** All letter spans of a rendering, in document order. */
  function Letters(spans: seq<WordSpan>): seq<LetterSpan> {
    if |spans| == 0 then [] else Letters(spans[..|spans| - 1]) + spans[|spans| - 1].letters
  }

  function Chars(ls: seq<LetterSpan>): (cs: string)
    ensures |cs| == |ls| && forall i :: 0 <= i < |ls| ==> cs[i] == ls[i].ch
  {
    seq(|ls|, i requires 0 <= i < |ls| => ls[i].ch)
  }

  lemma LettersAppend(spans: seq<WordSpan>, w: WordSpan)
    ensures Letters(spans + [w]) == Letters(spans) + w.letters
  {
    assert (spans + [w])[..|spans|] == spans;
  }

  /** The letter spans of one word, numbered from `first` on. */
  method RenderWord(word: string, first: nat) returns (letters: seq<LetterSpan>)
    ensures |letters| == |word|
    ensures forall k :: 0 <= k < |word| ==> letters[k] == LetterSpan(first + k, word[k])
  {
    letters := [];
    var letterIndex := first;
    var j := 0;
    while j < |word|
      invariant 0 <= j <= |word| && |letters| == j
      invariant letterIndex == first + j
      invariant forall k :: 0 <= k < j ==> letters[k] == LetterSpan(first + k, word[k])
    {
      letters := letters + [LetterSpan(letterIndex, word[j])];
      letterIndex := letterIndex + 1;
      j := j + 1;
    }
  }

  /** Appending a word whose letters are numbered on from the letters before
      it keeps the numbering consecutive and spells on with the word. */
  lemma AppendWord(spans: seq<WordSpan>, span: WordSpan, word: string)
    requires forall k :: 0 <= k < |Letters(spans)| ==> Letters(spans)[k].index == k
    requires |span.letters| == |word|
    requires forall k :: 0 <= k < |word| ==> span.letters[k] == LetterSpan(|Letters(spans)| + k, word[k])
    ensures |Letters(spans + [span])| == |Letters(spans)| + |word|
    ensures forall k :: 0 <= k < |Letters(spans + [span])| ==> Letters(spans + [span])[k].index == k
    ensures Chars(Letters(spans + [span])) == Chars(Letters(spans)) + word
    ensures Chars(span.letters) == word
  {
    LettersAppend(spans, span);
    var before := Letters(spans);
    var all := before + span.letters;
    assert forall k :: |before| <= k < |all| ==> all[k] == span.letters[k - |before|];
    assert Chars(all) == Chars(before) + Chars(span.letters);
  }

  /** The first `|spans|` words are rendered: each span spells its word,
      and a separator follows exactly the words that are not last. */
  predicate WordsRendered(spans: seq<WordSpan>, words: seq<string>) {
    && |spans| <= |words|
    && (forall v :: 0 <= v < |spans| ==> (spans[v].separator <==> v < |words| - 1))
    && (forall v :: 0 <= v < |spans| ==> Chars(spans[v].letters) == words[v])
  }

  lemma ExtendRendered(spans: seq<WordSpan>, words: seq<string>, span: WordSpan)
    requires WordsRendered(spans, words) && |spans| < |words|
    requires (span.separator <==> |spans| < |words| - 1) && Chars(span.letters) == words[|spans|]
    ensures WordsRendered(spans + [span], words)
  {
    var all := spans + [span];
    forall v | 0 <= v < |all|
      ensures (all[v].separator <==> v < |words| - 1) && Chars(all[v].letters) == words[v]
    {
      if v < |spans| { assert all[v] == spans[v]; }
    }
  }

  /** Once every word is rendered, the spans and letters match the label. */
  lemma LabelRendered(text: string, spans: seq<WordSpan>)
    requires |spans| == |Split(text, ' ')| && WordsRendered(spans, Split(text, ' '))
    requires Chars(Letters(spans)) == Concat(Split(text, ' '))
    ensures |spans| == Count(text, ' ') + 1
    ensures forall w :: 0 <= w < |spans| ==> (spans[w].separator <==> w < |spans| - 1)
    ensures forall w :: 0 <= w < |spans| ==> Chars(spans[w].letters) == Split(text, ' ')[w]
    ensures |Letters(spans)| == |text| - Count(text, ' ')
    ensures Chars(Letters(spans)) == Without(text, {' '})
  {
    SplitConcat(text, ' ');
    WithoutCount(text, ' ');
  }

  /** The render of a label, with the running `letterIndex` counter. */
  method RenderLabel(text: string) returns (spans: seq<WordSpan>)
    ensures |spans| == Count(text, ' ') + 1
    ensures forall w :: 0 <= w < |spans| ==> (spans[w].separator <==> w < |spans| - 1)
    ensures forall w :: 0 <= w < |spans| ==> Chars(spans[w].letters) == Split(text, ' ')[w]
    ensures |Letters(spans)| == |text| - Count(text, ' ')
    ensures forall k :: 0 <= k < |Letters(spans)| ==> Letters(spans)[k].index == k
    ensures Chars(Letters(spans)) == Without(text, {' '})
  {
    var words := Split(text, ' ');
    var letterIndex := 0;
    spans := [];
    var w := 0;
    while w < |words|
      invariant 0 <= w <= |words| && |spans| == w
      invariant WordsRendered(spans, words)
      invariant letterIndex == |Letters(spans)|
      invariant forall k :: 0 <= k < |Letters(spans)| ==> Letters(spans)[k].index == k
      invariant Chars(Letters(spans)) == Concat(words[..w])
    {
      var letters := RenderWord(words[w], letterIndex);
      var span := WordSpan(letters, w < |words| - 1);
      AppendWord(spans, span, words[w]);
      ExtendRendered(spans, words, span);
      ConcatAppend(words[..w], words[w]);
      assert words[..w + 1] == words[..w] + [words[w]];
      spans := spans + [span];
      letterIndex := letterIndex + |letters|;
      w := w + 1;
    }
    assert words[..w] == words;
    LabelRendered(text, spans);
  }
}

=== FILE: proximity.dfy ===
/** The proximity text effect: each letter of a label carries its own
    `font-variation-settings`, interpolated between a "from" and a "to"
    setting by how close the pointer is to the letter's centre. */
module Proximity {
  import opened Wrappers
  import opened JsString
  import opened JsMap
  import opened RealArith

  /** The `radius` prop's default. */
  const DefaultRadius: real := 50.0

  // ---------------------------------------------------------------------------
  // Pointer position

  datatype Point = Point(x: real, y: real)

  /** `updatePosition`: client coordinates made relative to the container's
      top-left corner when there is a container, kept as they are otherwise. */
  function UpdatePosition(client: Point, containerOrigin: Option<Point>): (p: Point)
    ensures containerOrigin.Some? ==>
      p.x + containerOrigin.value.x == client.x && p.y + containerOrigin.value.y == client.y
    ensures containerOrigin.None? ==> p == client
  {
    match containerOrigin
    case Some(o) => Point(client.x - o.x, client.y - o.y)
    case None => client
  }

  /** The pointer events the component listens to; a touch move reads its
      first touch. */
  datatype PointerEvent = MouseMove(client: Point) | TouchMove(touches: seq<Point>)

  function SamplePoint(ev: PointerEvent): (p: Point)
    requires ev.TouchMove? ==> |ev.touches| > 0
    ensures ev.MouseMove? ==> p == ev.client
    ensures ev.TouchMove? ==> p == ev.touches[0]
  {
    match ev
    case MouseMove(c) => c
    case TouchMove(ts) => ts[0]
  }

  // ---------------------------------------------------------------------------
  // Settings strings

  const Quotes: set<char> := {'\'', '"'}

  /** One comma-separated item `'axis' value`: trimmed, split on single spaces;
      the first token with every quote character removed is the axis, the
      second token (absent when there is none) goes through `parseFloat`. */
  function ParseItem(item: string, parseFloat: Option<string> -> real): (e: Entry<real>)
    ensures forall i :: 0 <= i < |e.key| ==> e.key[i] !in Quotes && e.key[i] != ' '
  {
    var tokens := Split(Trim(item), ' ');
    SplitPieces(Trim(item), ' ');
    WithoutKeeps(tokens[0], Quotes, ' ');
    Entry(Without(tokens[0], Quotes), parseFloat(if |tokens| > 1 then Some(tokens[1]) else None))
  }

  /** With a first blank at `i` of the trimmed item and the next blank (or
      the end) at `j`, the axis is the unquoted text before `i` and the value
      is `parseFloat` of the text between the two. */
  lemma ItemAxisAndValue(item: string, i: nat, j: nat, parseFloat: Option<string> -> real)
    requires i < j <= |Trim(item)| && Trim(item)[i] == ' ' && ' ' !in Trim(item)[..i]
    requires ' ' !in Trim(item)[i + 1..j] && (j == |Trim(item)| || Trim(item)[j] == ' ')
    ensures ParseItem(item, parseFloat)
         == Entry(Without(Trim(item)[..i], Quotes), parseFloat(Some(Trim(item)[i + 1..j])))
  {
    var t := Trim(item);
    SplitHead(t, ' ', i);
    var rest := t[i + 1..];
    assert rest[..j - i - 1] == t[i + 1..j];
    SplitHead(rest, ' ', j - i - 1);
    var tokens := Split(t, ' ');
    assert tokens[1] == tokens[1..][0] == t[i + 1..j];
  }

  /** A trimmed item without a blank is all axis, and its value is
      `parseFloat(undefined)`. */
  lemma ItemWithoutValue(item: string, parseFloat: Option<string> -> real)
    requires ' ' !in Trim(item)
    ensures ParseItem(item, parseFloat) == Entry(Without(Trim(item), Quotes), parseFloat(None))
  {
    var t := Trim(item);
    assert t[..|t|] == t;
    SplitHead(t, ' ', |t|);
    NoOccurrence(t, ' ');
  }

  /** The items of a settings string, before they enter a `Map`. */
  function ParseItems(s: string, parseFloat: Option<string> -> real): (es: seq<Entry<real>>)
    ensures |es| == Count(s, ',') + 1
  {
    var items := Split(s, ',');
    seq(|items|, i requires 0 <= i < |items| => ParseItem(items[i], parseFloat))
  }

  /** `parseSettings`: the items collected in a `Map` keyed by axis. */
  function ParseSettings(s: string, parseFloat: Option<string> -> real): (m: seq<Entry<real>>)
    ensures Distinct(Keys(m))
  {
    FromEntries(ParseItems(s, parseFloat))
  }

  /** One animated axis: its name, its value away from the pointer and its
      value under the pointer. */
  datatype AxisPair = AxisPair(axis: string, fromValue: real, toValue: real)

  /** `parsedSettings`: one pair per axis of the "from" map, in its order; the
      "to" value is the "to" map's value for the axis, or the "from" value
      when the "to" map lacks the axis. */
  function PairAxes(from: seq<Entry<real>>, to: seq<Entry<real>>): (ps: seq<AxisPair>)
    ensures |ps| == |from|
    ensures forall i :: 0 <= i < |ps| ==> ps[i].axis == from[i].key && ps[i].fromValue == from[i].value
    ensures forall i :: 0 <= i < |ps| && Get(to, from[i].key).Some? ==>
      ps[i].toValue == Get(to, from[i].key).value
    ensures forall i :: 0 <= i < |ps| && Get(to, from[i].key).None? ==> ps[i].toValue == ps[i].fromValue
  {
    seq(|from|, i requires 0 <= i < |from| =>
      AxisPair(from[i].key, from[i].value, Get(to, from[i].key).GetOr(from[i].value)))
  }

  /** An item without a comma names a plain axis. */
  lemma ParsedAxisPlain(item: string, parseFloat: Option<string> -> real)
    requires ',' !in item
    ensures PlainAxis(ParseItem(item, parseFloat).key)
  {
    TrimKeepsOut(item, ',');
    var tokens := Split(Trim(item), ' ');
    SplitKeepsOut(Trim(item), ' ', ',');
    WithoutKeeps(tokens[0], Quotes, ',');
    assert ',' !in Without(tokens[0], Quotes);
  }

  /** Every settings string, even an empty one, names at least one axis, and
      every axis it names is plain. */
  lemma ParsedSettingsPlain(s: string, parseFloat: Option<string> -> real)
    ensures |ParseSettings(s, parseFloat)| >= 1
    ensures forall i :: 0 <= i < |ParseSettings(s, parseFloat)| ==> PlainAxis(ParseSettings(s, parseFloat)[i].key)
  {
    var items := ParseItems(s, parseFloat);
    var m := ParseSettings(s, parseFloat);
    FromEntriesKeys(items, items[0].key);
    SplitPieces(s, ',');
    forall i | 0 <= i < |m| ensures PlainAxis(m[i].key) {
      FromEntriesKeys(items, m[i].key);
      assert Keys(m)[i] == m[i].key;
      var j :| 0 <= j < |items| && items[j].key == m[i].key;
      ParsedAxisPlain(Split(s, ',')[j], parseFloat);
    }
  }

  /** `parsedSettings`: the animated axes of a "from" and a "to" string. */
  function ParsedSettings(fromSettings: string, toSettings: string, parseFloat: Option<string> -> real): (ps: seq<AxisPair>)
    ensures |ps| >= 1 && Distinct(Axes(ps))
    ensures forall i :: 0 <= i < |ps| ==> PlainAxis(ps[i].axis)
    ensures Axes(ps) == Keys(ParseSettings(fromSettings, parseFloat))
  {
    ParsedSettingsPlain(fromSettings, parseFloat);
    var pairs := PairAxes(ParseSettings(fromSettings, parseFloat), ParseSettings(toSettings, parseFloat));
    assert Axes(pairs) == Keys(ParseSettings(fromSettings, parseFloat));
    pairs
  }

  /** What the component writes into a letter's style: `'axis' value` items
      joined by `", "`, with every value already formatted. */
  function RenderItem(axis: string, token: string): (t: string)
    ensures ',' !in axis && ',' !in token ==> ',' !in t
  {
    "'" + axis + "' " + token
  }

  /** Without commas inside the axes and tokens, the string holds one
      comma-separated item per entry. */
  function RenderSettings(es: seq<Entry<string>>): (s: string)
    ensures |es| == 0 ==> s == ""
    ensures |es| >= 1 && (forall i :: 0 <= i < |es| ==> ',' !in es[i].key && ',' !in es[i].value) ==>
      Count(s, ',') == |es| - 1
  {
    var items := seq(|es|, i requires 0 <= i < |es| => RenderItem(es[i].key, es[i].value));
    if |es| >= 1 && (forall i :: 0 <= i < |es| ==> ',' !in es[i].key && ',' !in es[i].value) then
      SplitRendered(items);
      Join(items, ", ")
    else
      Join(items, ", ")
  }

  // ---------------------------------------------------------------------------
  // Falloff and interpolation

  /** The falloff curves modelled: `'linear'` (also every unknown name) and
      `'exponential'`. */
  datatype Falloff = Linear | Exponential

  function Min(a: real, b: real): real { if a <= b then a else b }
  function Max(a: real, b: real): real { if a >= b then a else b }

  /** `norm = Math.min(Math.max(1 - distance / radius, 0), 1)`. */
  function Norm(distance: real, radius: real): (n: real)
    requires radius > 0.0
    ensures 0.0 <= n <= 1.0
    ensures distance <= 0.0 ==> n == 1.0
    ensures distance >= radius ==> n == 0.0
    ensures 0.0 <= distance <= radius ==> n + distance / radius == 1.0
  {
    if distance >= radius then
      DivMonotone(radius, distance, radius);
      Min(Max(1.0 - distance / radius, 0.0), 1.0)
    else
      Min(Max(1.0 - distance / radius, 0.0), 1.0)
  }

  /** `calculateFalloff` for the linear and exponential curves. */
  function FalloffValue(kind: Falloff, distance: real, radius: real): (f: real)
    requires radius > 0.0
    ensures 0.0 <= f <= Norm(distance, radius) <= 1.0
    ensures distance <= 0.0 ==> f == 1.0
    ensures distance >= radius ==> f == 0.0
    ensures kind == Linear ==> f == Norm(distance, radius)
    ensures kind == Exponential ==> f == Norm(distance, radius) * Norm(distance, radius)
  {
    var n := Norm(distance, radius);
    match kind
    case Exponential => ScaleEnds(n, n); Scale(n, n)
    case Linear => n
  }

  /** The falloff never grows as the pointer moves away. */
  lemma FalloffMonotone(kind: Falloff, d1: real, d2: real, radius: real)
    requires radius > 0.0 && d1 <= d2
    ensures FalloffValue(kind, d2, radius) <= FalloffValue(kind, d1, radius)
  {
    var n1, n2 := Norm(d1, radius), Norm(d2, radius);
    DivMonotone(d1, d2, radius);
    assert 0.0 <= n2 <= n1;
    ScaleMonotone(n1, n2, n1, n2);
  }

  predicate Between(v: real, a: real, b: real) {
    (a <= v <= b) || (b <= v <= a)
  }

  /** `fromValue + (toValue - fromValue) * falloffValue`. */
  function Lerp(from: real, to: real, f: real): (v: real)
    ensures f == 0.0 ==> v == from
    ensures f == 1.0 ==> v == to
    ensures 0.0 <= f <= 1.0 ==> Between(v, from, to)
    ensures from != to ==> (v - from) / (to - from) == f
  {
    ScaleEnds(to - from, f);
    ScaleShare(to - from, f);
    from + Scale(to - from, f)
  }

  /** The falloff-weighted value of every axis, in axis order. */
  function InterpolateAxes(pairs: seq<AxisPair>, f: real): (es: seq<Entry<real>>)
    ensures |es| == |pairs|
    ensures forall i :: 0 <= i < |es| ==> es[i].key == pairs[i].axis
    ensures 0.0 <= f <= 1.0 ==> forall i :: 0 <= i < |es| ==>
      Between(es[i].value, pairs[i].fromValue, pairs[i].toValue)
    ensures f == 0.0 ==> forall i :: 0 <= i < |es| ==> es[i].value == pairs[i].fromValue
    ensures f == 1.0 ==> forall i :: 0 <= i < |es| ==> es[i].value == pairs[i].toValue
    ensures forall i :: 0 <= i < |es| && pairs[i].fromValue != pairs[i].toValue ==>
      (es[i].value - pairs[i].fromValue) / (pairs[i].toValue - pairs[i].fromValue) == f
  {
    seq(|pairs|, i requires 0 <= i < |pairs| =>
      Entry(pairs[i].axis, Lerp(pairs[i].fromValue, pairs[i].toValue, f)))
  }

  /** Formats every value with `format` (the component uses `toFixed(1)`). */
  function FormatValues(es: seq<Entry<real>>, format: real -> string): (ts: seq<Entry<string>>)
    ensures |ts| == |es|
    ensures forall i :: 0 <= i < |ts| ==> ts[i] == Entry(es[i].key, format(es[i].value))
  {
    seq(|es|, i requires 0 <= i < |es| => Entry(es[i].key, format(es[i].value)))
  }

  // ---------------------------------------------------------------------------
  // One animation frame

  datatype Config = Config(
    fromSettings: string,   // `fromFontVariationSettings`, written verbatim
    pairs: seq<AxisPair>,    // `parsedSettings`
    radius: real,
    falloff: Falloff,
    format: real -> string)  // `toFixed(1)`

  /** The style string written for a letter at `distance` below the radius. */
  function NearStyle(cfg: Config, distance: real): (s: string)
    requires 0.0 <= distance < cfg.radius
    ensures (&& |cfg.pairs| >= 1
             && (forall i :: 0 <= i < |cfg.pairs| ==> ',' !in cfg.pairs[i].axis)
             && (forall v :: ',' !in cfg.format(v))) ==>
      Count(s, ',') == |cfg.pairs| - 1
  {
    var f := FalloffValue(cfg.falloff, distance, cfg.radius);
    RenderSettings(FormatValues(InterpolateAxes(cfg.pairs, f), cfg.format))
  }

  /** The write (if any) the frame makes to a letter whose current style is
      `style` and whose centre lies at `distance` from the pointer. */
  function LetterWrite(cfg: Config, style: string, distance: real): (w: Option<string>)
    requires distance >= 0.0
    ensures distance >= cfg.radius ==> (w.None? <==> style == cfg.fromSettings)
    ensures distance >= cfg.radius ==> w.GetOr(style) == cfg.fromSettings
    ensures distance < cfg.radius ==> w == Some(NearStyle(cfg, distance))
  {
    if distance >= cfg.radius then
      if style != cfg.fromSettings then Some(cfg.fromSettings) else None
    else
      Some(NearStyle(cfg, distance))
  }

  /** The letters' state: the last processed pointer position (`null` at
      first) and every letter's current style. */
  datatype Letters = Letters(last: Option<Point>, styles: seq<string>)

  datatype FrameOutcome = FrameOutcome(letters: Letters, rescheduled: bool)

  /** At mount every letter span is styled with the "from" settings and no
      pointer position has been processed (`{ x: null, y: null }`). */
  function InitialLetters(cfg: Config, letterCount: nat): (st: Letters)
    ensures st.last.None? && |st.styles| == letterCount
    ensures forall i :: 0 <= i < letterCount ==> st.styles[i] == cfg.fromSettings
  {
    Letters(None, seq(letterCount, _ => cfg.fromSettings))
  }

  /** The configuration the component derives from its props; a missing
      `radius` prop takes its default. */
  function Configure(fromSettings: string, toSettings: string, radius: Option<real>, falloff: Falloff,
                     parseFloat: Option<string> -> real, format: real -> string): (cfg: Config)
    ensures cfg.fromSettings == fromSettings
    ensures radius.None? ==> cfg.radius == DefaultRadius
    ensures radius.Some? ==> cfg.radius == radius.value
    ensures Axes(cfg.pairs) == Keys(ParseSettings(fromSettings, parseFloat))
    ensures |cfg.pairs| >= 1 && Distinct(Axes(cfg.pairs))
    ensures forall i :: 0 <= i < |cfg.pairs| ==> PlainAxis(cfg.pairs[i].axis)
  {
    Config(fromSettings, ParsedSettings(fromSettings, toSettings, parseFloat), radius.GetOr(DefaultRadius), falloff, format)
  }

  /** `animate`: `mounted` says whether the container exists and the effect
      is still active; `distances[i]` is the distance from the pointer to the
      cached centre of letter `i`, and letters without a cached centre are
      skipped. */
  function Animate(cfg: Config, st: Letters, mounted: bool, pointer: Point, distances: seq<real>): (r: FrameOutcome)
    requires forall i :: 0 <= i < |distances| ==> distances[i] >= 0.0
    ensures !mounted ==> r == FrameOutcome(st, false)
    ensures mounted ==> r.rescheduled
    ensures mounted && st.last == Some(pointer) ==> r.letters == st
    ensures mounted && st.last != Some(pointer) ==>
      && r.letters.last == Some(pointer)
      && |r.letters.styles| == |st.styles|
      && (forall i :: |distances| <= i < |st.styles| ==> r.letters.styles[i] == st.styles[i])
      && (forall i :: 0 <= i < |st.styles| && i < |distances| && distances[i] >= cfg.radius ==>
            r.letters.styles[i] == cfg.fromSettings)
      && (forall i :: 0 <= i < |st.styles| && i < |distances| && distances[i] < cfg.radius ==>
            r.letters.styles[i] == NearStyle(cfg, distances[i]))
  {
    if !mounted then FrameOutcome(st, false)
    else if st.last == Some(pointer) then FrameOutcome(st, true)
    else
      var styles := seq(|st.styles|, i requires 0 <= i < |st.styles| =>
        if i < |distances| then LetterWrite(cfg, st.styles[i], distances[i]).GetOr(st.styles[i])
        else st.styles[i]);
      FrameOutcome(Letters(Some(pointer), styles), true)
  }

  // ---------------------------------------------------------------------------
  // Properties

  /** The pairing of two lists of parsed items, through their `Map`s. */
  function Pairs(fromItems: seq<Entry<real>>, toItems: seq<Entry<real>>): seq<AxisPair> {
    PairAxes(FromEntries(fromItems), FromEntries(toItems))
  }

  function Axes(ps: seq<AxisPair>): (axes: seq<string>)
    ensures |axes| == |ps| && forall i :: 0 <= i < |ps| ==> axes[i] == ps[i].axis
  {
    seq(|ps|, i requires 0 <= i < |ps| => ps[i].axis)
  }

  /** Each animated axis is named by some "from" item and every "from" item's
      axis is animated; its "from" value is the value of the axis's last
      "from" item; its "to" value is that of its last "to" item, or the
      "from" value when no "to" item names the axis. */
  lemma PairingValues(fromItems: seq<Entry<real>>, toItems: seq<Entry<real>>, axis: string)
    ensures axis in Axes(Pairs(fromItems, toItems)) <==> axis in Keys(fromItems)
    ensures forall i :: 0 <= i < |Pairs(fromItems, toItems)| && Pairs(fromItems, toItems)[i].axis == axis ==>
      && LastValue(fromItems, axis) == Some(Pairs(fromItems, toItems)[i].fromValue)
      && (LastValue(toItems, axis).Some? ==> Pairs(fromItems, toItems)[i].toValue == LastValue(toItems, axis).value)
      && (LastValue(toItems, axis).None? ==> Pairs(fromItems, toItems)[i].toValue == Pairs(fromItems, toItems)[i].fromValue)
  {
    var fm := FromEntries(fromItems);
    FromEntriesKeys(fromItems, axis);
    FromEntriesGet(fromItems, axis);
    FromEntriesGet(toItems, axis);
    assert Axes(Pairs(fromItems, toItems)) == Keys(fm);
    forall i | 0 <= i < |fm| && fm[i].key == axis ensures IndexOf(Keys(fm), axis) == i {
      assert Keys(fm)[i] == axis;
    }
  }

  /** The animated axes are distinct and come in the order in which each
      first appears among the "from" items. */
  lemma PairingOrder(fromItems: seq<Entry<real>>, toItems: seq<Entry<real>>, i: nat, j: nat)
    requires i < j < |Pairs(fromItems, toItems)|
    ensures Pairs(fromItems, toItems)[i].axis != Pairs(fromItems, toItems)[j].axis
    ensures Pairs(fromItems, toItems)[i].axis in Keys(fromItems)
    ensures Pairs(fromItems, toItems)[j].axis in Keys(fromItems)
    ensures IndexOf(Keys(fromItems), Pairs(fromItems, toItems)[i].axis)
          < IndexOf(Keys(fromItems), Pairs(fromItems, toItems)[j].axis)
  {
    FromEntriesOrder(fromItems, i, j);
  }

  /** Axis names and value tokens the settings syntax can carry unchanged. */
  predicate PlainAxis(a: string) {
    forall i :: 0 <= i < |a| ==> a[i] !in Quotes && a[i] != ' ' && a[i] != ','
  }

  predicate PlainToken(t: string) {
    |t| > 0 && forall i :: 0 <= i < |t| ==> !IsWhiteSpace(t[i]) && t[i] != ','
  }

  function AddSpace(xs: seq<string>): (ys: seq<string>)
    ensures |ys| == |xs| && forall i :: 0 <= i < |xs| ==> ys[i] == " " + xs[i]
  {
    seq(|xs|, i requires 0 <= i < |xs| => " " + xs[i])
  }

  /** The comma a `", "` join puts between two items starts a new piece,
      and the blank after it sticks to the next item's piece. */
  lemma SplitAfterComma(rest: string)
    ensures Split(", " + rest, ',') == ["", " " + Split(rest, ',')[0]] + Split(rest, ',')[1..]
  {
    assert (", " + rest)[0] == ',' && (", " + rest)[1..] == " " + rest;
    SplitPrefix(" ", rest, ',');
  }

  lemma AddSpaceCons(items: seq<string>)
    requires |items| >= 1
    ensures AddSpace(items) == [" " + items[0]] + AddSpace(items[1..])
  {}

  /** Splitting a `", "`-join on commas leaves the blank in front of every
      item but the first. */
  lemma {:induction false} SplitRendered(items: seq<string>)
    requires |items| >= 1 && forall i :: 0 <= i < |items| ==> ',' !in items[i]
    ensures Split(Join(items, ", "), ',') == [items[0]] + AddSpace(items[1..])
    decreases |items|
  {
    if |items| == 1 {
      SplitPrefix(items[0], "", ',');
      assert items[0] + "" == items[0];
    } else {
      var rest := Join(items[1..], ", ");
      SplitRendered(items[1..]);
      assert Split(rest, ',') == [items[1]] + AddSpace(items[2..]);
      SplitAfterComma(rest);
      AddSpaceCons(items[1..]);
      assert items[1..][1..] == items[2..];
      assert Split(", " + rest, ',') == [""] + AddSpace(items[1..]);
      assert Join(items, ", ") == items[0] + (", " + rest);
      SplitPrefix(items[0], ", " + rest, ',');
      assert items[0] + "" == items[0];
    }
  }

  /** Trimming a rendered item, with or without the blank a `", "` join
      leaves in front of it, gives the item. */
  lemma TrimRenderedItem(axis: string, token: string, lead: string)
    requires PlainToken(token) && (lead == "" || lead == " ")
    ensures Trim(lead + RenderItem(axis, token)) == RenderItem(axis, token)
  {
    var item := RenderItem(axis, token);
    var p := lead + item;
    assert p[|lead|..] == item;
    assert p[|lead|] == '\'';
    assert p[|p| - 1] == token[|token| - 1];
    assert p[..|lead|] == lead;
    assert p[|p|..] == [];
    TrimUnique(p, |lead|, |p|);
  }

  /** A rendered item splits on its blank into the quoted axis and the token. */
  lemma SplitRenderedItem(axis: string, token: string)
    requires PlainAxis(axis) && PlainToken(token)
    ensures Split(RenderItem(axis, token), ' ') == ["'" + axis + "'", token]
  {
    var q := "'" + axis + "'";
    assert RenderItem(axis, token) == Join([q, token], [' ']);
    assert forall k :: 0 <= k < |q| ==> q[k] != ' ';
    JoinSplit([q, token], ' ');
  }

  /** Removing the quotes from a quoted plain axis gives the axis. */
  lemma UnquoteAxis(axis: string)
    requires PlainAxis(axis)
    ensures Without("'" + axis + "'", Quotes) == axis
  {
    WithoutConcat("'", axis, Quotes);
    WithoutConcat("'" + axis, "'", Quotes);
    WithoutNothing(axis, Quotes);
    assert Without("'", Quotes) == "";
  }

  /** Parsing one rendered item gives back its axis and its value token. */
  lemma ParseRenderedItem(axis: string, token: string, lead: string, parseFloat: Option<string> -> real)
    requires PlainAxis(axis) && PlainToken(token) && (lead == "" || lead == " ")
    ensures ParseItem(lead + RenderItem(axis, token), parseFloat) == Entry(axis, parseFloat(Some(token)))
  {
    TrimRenderedItem(axis, token, lead);
    SplitRenderedItem(axis, token);
    UnquoteAxis(axis);
  }

  /** The comma pieces of a rendered settings string: the first item, then
      every further item behind the blank the join puts in front of it. */
  lemma RenderedPieces(es: seq<Entry<string>>)
    requires |es| >= 1
    requires forall i :: 0 <= i < |es| ==> PlainAxis(es[i].key) && PlainToken(es[i].value)
    ensures |Split(RenderSettings(es), ',')| == |es|
    ensures Split(RenderSettings(es), ',')[0] == RenderItem(es[0].key, es[0].value)
    ensures forall i :: 1 <= i < |es| ==>
      Split(RenderSettings(es), ',')[i] == " " + RenderItem(es[i].key, es[i].value)
  {
    var items := seq(|es|, i requires 0 <= i < |es| => RenderItem(es[i].key, es[i].value));
    forall i | 0 <= i < |items| ensures ',' !in items[i] {
      assert items[i] == "'" + es[i].key + "' " + es[i].value;
    }
    SplitRendered(items);
  }

  /** The settings string the component writes parses back into exactly the
      axes and value tokens it was written from. */
  lemma ParseRendered(es: seq<Entry<string>>, parseFloat: Option<string> -> real)
    requires |es| >= 1 && Distinct(Keys(es))
    requires forall i :: 0 <= i < |es| ==> PlainAxis(es[i].key) && PlainToken(es[i].value)
    ensures ParseSettings(RenderSettings(es), parseFloat)
         == seq(|es|, i requires 0 <= i < |es| => Entry(es[i].key, parseFloat(Some(es[i].value))))
  {
    var want := seq(|es|, i requires 0 <= i < |es| => Entry(es[i].key, parseFloat(Some(es[i].value))));
    RenderedPieces(es);
    var pieces := Split(RenderSettings(es), ',');
    forall i | 0 <= i < |es| ensures ParseItem(pieces[i], parseFloat) == want[i] {
      if i == 0 {
        assert pieces[0] == "" + RenderItem(es[0].key, es[0].value);
        ParseRenderedItem(es[0].key, es[0].value, "", parseFloat);
      } else {
        ParseRenderedItem(es[i].key, es[i].value, " ", parseFloat);
      }
    }
    assert ParseItems(RenderSettings(es), parseFloat) == want;
    assert Keys(want) == Keys(es);
    FromDistinctEntries(want);
  }

  /** A letter right under the pointer shows every axis at its "to" value. */
  lemma NearStyleAtCentre(cfg: Config)
    requires cfg.radius > 0.0
    ensures NearStyle(cfg, 0.0) == RenderSettings(FormatValues(
      seq(|cfg.pairs|, i requires 0 <= i < |cfg.pairs| => Entry(cfg.pairs[i].axis, cfg.pairs[i].toValue)),
      cfg.format))
  {
    var es := InterpolateAxes(cfg.pairs, FalloffValue(cfg.falloff, 0.0, cfg.radius));
    assert es == seq(|cfg.pairs|, i requires 0 <= i < |cfg.pairs| => Entry(cfg.pairs[i].axis, cfg.pairs[i].toValue));
  }

  /** The style the frame writes for a letter near the pointer is itself a
      settings string: parsed again it yields the same axes, each with the
      formatted interpolated value. */
  lemma NearStyleParsesBack(cfg: Config, distance: real, parseFloat: Option<string> -> real)
    requires 0.0 <= distance < cfg.radius
    requires |cfg.pairs| >= 1 && Distinct(Axes(cfg.pairs))
    requires forall i :: 0 <= i < |cfg.pairs| ==> PlainAxis(cfg.pairs[i].axis)
    requires forall v :: PlainToken(cfg.format(v))
    ensures ParseSettings(NearStyle(cfg, distance), parseFloat)
         == seq(|cfg.pairs|, i requires 0 <= i < |cfg.pairs| =>
              Entry(cfg.pairs[i].axis,
                    parseFloat(Some(cfg.format(Lerp(cfg.pairs[i].fromValue, cfg.pairs[i].toValue,
                                                    FalloffValue(cfg.falloff, distance, cfg.radius)))))))
  {
    var es := FormatValues(InterpolateAxes(cfg.pairs, FalloffValue(cfg.falloff, distance, cfg.radius)), cfg.format);
    assert Keys(es) == Axes(cfg.pairs);
    ParseRendered(es, parseFloat);
  }

  /** The round trip of a near style, read as the parsed axes and values. */
  lemma NearStyleAxesAndValues(cfg: Config, distance: real, parseFloat: Option<string> -> real)
    requires 0.0 <= distance < cfg.radius
    requires |cfg.pairs| >= 1 && Distinct(Axes(cfg.pairs))
    requires forall i :: 0 <= i < |cfg.pairs| ==> PlainAxis(cfg.pairs[i].axis)
    requires forall v :: PlainToken(cfg.format(v))
    ensures Keys(ParseSettings(NearStyle(cfg, distance), parseFloat)) == Axes(cfg.pairs)
    ensures forall i :: 0 <= i < |ParseSettings(NearStyle(cfg, distance), parseFloat)| ==>
      ParseSettings(NearStyle(cfg, distance), parseFloat)[i].value
        == parseFloat(Some(cfg.format(Lerp(cfg.pairs[i].fromValue, cfg.pairs[i].toValue,
                                           FalloffValue(cfg.falloff, distance, cfg.radius)))))
  {
    NearStyleParsesBack(cfg, distance, parseFloat);
  }

  /** For the component's own configuration, the style written for a near
      letter parses back to the axes of the "from" settings, in their order,
      each with its formatted interpolated value. */
  lemma ConfiguredStyleParsesBack(fromSettings: string, toSettings: string, radius: Option<real>, falloff: Falloff,
                                  parseFloat: Option<string> -> real, format: real -> string, distance: real)
    requires 0.0 <= distance < radius.GetOr(DefaultRadius)
    requires forall v :: PlainToken(format(v))
    ensures var cfg := Configure(fromSettings, toSettings, radius, falloff, parseFloat, format);
      var back := ParseSettings(NearStyle(cfg, distance), parseFloat);
      && Keys(back) == Keys(ParseSettings(fromSettings, parseFloat))
      && forall i :: 0 <= i < |back| ==>
           back[i].value == parseFloat(Some(format(Lerp(cfg.pairs[i].fromValue, cfg.pairs[i].toValue,
                                                        FalloffValue(falloff, distance, cfg.radius)))))
  {
    var cfg := Configure(fromSettings, toSettings, radius, falloff, parseFloat, format);
    NearStyleAxesAndValues(cfg, distance, parseFloat);
  }

  /** Starting from the mount state, the first mounted frame processes the
      pointer; letters out of reach keep their "from" style without a write. */
  lemma FirstFrameProcesses(cfg: Config, letterCount: nat, pointer: Point, distances: seq<real>)
    requires forall i :: 0 <= i < |distances| ==> distances[i] >= 0.0
    ensures Animate(cfg, InitialLetters(cfg, letterCount), true, pointer, distances).letters.last == Some(pointer)
    ensures forall i :: 0 <= i < |distances| && i < letterCount && distances[i] >= cfg.radius ==>
      LetterWrite(cfg, InitialLetters(cfg, letterCount).styles[i], distances[i]).None?
  {
  }

  /** A second frame with the pointer where it was changes nothing. */
  lemma StillPointerIsIdle(cfg: Config, st: Letters, pointer: Point, distances: seq<real>)
    requires forall i :: 0 <= i < |distances| ==> distances[i] >= 0.0
    ensures var once := Animate(cfg, st, true, pointer, distances).letters;
      Animate(cfg, once, true, pointer, distances) == FrameOutcome(once, true)
  {
  }
}

=== FILE: real_arith.dfy ===
/** Products of reals, named once. The proofs about falloff, interpolation
    and masks reason about `Scale` through its contract and a few lemmas, so
    the solver never has to find non-linear facts of its own. */
module RealArith {

  lemma MulNonneg(a: real, b: real)
    requires a >= 0.0 && b >= 0.0
    ensures a * b >= 0.0
  {}

  lemma MulMonotone(k: real, a: real, b: real)
    requires k >= 0.0 && a <= b
    ensures k * a <= k * b
  {
    MulNonneg(k, b - a);
  }

  /** `k * f`. For a share `f` in [0,1], the product lies between 0 and `k`. */
  function Scale(k: real, f: real): (p: real)
    ensures 0.0 <= f <= 1.0 && k >= 0.0 ==> 0.0 <= p <= k
    ensures 0.0 <= f <= 1.0 && k <= 0.0 ==> k <= p <= 0.0
  {
    if 0.0 <= f <= 1.0 && k >= 0.0 then
      MulNonneg(k, f);
      MulNonneg(k, 1.0 - f);
      k * f
    else if 0.0 <= f <= 1.0 then
      MulNonneg(-k, f);
      MulNonneg(-k, 1.0 - f);
      k * f
    else k * f
  }

  /** A share of 0 is nothing, a share of 1 is everything. */
  lemma ScaleEnds(k: real, f: real)
    ensures f == 0.0 ==> Scale(k, f) == 0.0
    ensures f == 1.0 ==> Scale(k, f) == k
  {
    if f == 0.0 {
      assert Scale(k, f) == Scale(k, 0.0) == k * 0.0;
    } else if f == 1.0 {
      assert Scale(k, f) == Scale(k, 1.0) == k * 1.0;
    }
  }

  /** The product divided by either non-zero factor gives the other back. */
  lemma ScaleShare(k: real, f: real)
    ensures k != 0.0 ==> Scale(k, f) / k == f
    ensures f != 0.0 ==> Scale(k, f) / f == k
  {
    var p := Scale(k, f);
    assert p == k * f;
    if k != 0.0 {
      assert (p / k - f) * k == p - f * k;
    }
    if f != 0.0 {
      assert (p / f - k) * f == p - k * f;
    }
  }

  lemma ScaleMonotone(a: real, a': real, b: real, b': real)
    requires 0.0 <= a' <= a && 0.0 <= b' <= b
    ensures Scale(a', b') <= Scale(a, b)
  {
    var p', p := Scale(a', b'), Scale(a, b);
    assert p' == a' * b' && p == a * b;
    var q := a' * b;
    assert p' <= q by { MulMonotone(a', b', b); }
    assert q <= p by { MulNonneg(a - a', b); }
  }

  lemma DivMonotone(a: real, b: real, r: real)
    requires r > 0.0 && a <= b
    ensures a / r <= b / r
  {
    assert b / r - a / r == (b - a) / r;
    assert (b - a) / r * r == b - a;
  }
}

=== FILE: thread_shader.dfy ===
/** The parts of the background's fragment shader that are plain arithmetic:
    which of the 25 lines are drawn, and how the lines' coverage values
    combine into the pixel's mask, alpha and colour. The coverage of one
    line (`lineFn` before its final clamp: noise, smoothstep and pow) is an
    input. */
module ThreadShader {
  import opened FrameGate
  import opened RealArith

  const LineCount: nat := 25

  /** `p = float(i) / float(u_line_count)`. */
  function LinePosition(i: nat): real {
    i as real / LineCount as real
  }

  /** `if (p < 0.01 || p > 0.99) continue;` */
  predicate Skipped(i: nat) {
    LinePosition(i) < 0.01 || LinePosition(i) > 0.99
  }

  /** Of the 25 lines only the first is skipped. */
  lemma OnlyFirstLineSkipped(i: nat)
    requires i < LineCount
    ensures Skipped(i) <==> i == 0
  {
    assert LinePosition(i) * 25.0 == i as real;
  }

  /** `clamp(x, 0.0, 1.0)`. */
  function Clamp01(x: real): (r: real)
    ensures 0.0 <= r <= 1.0
    ensures 0.0 <= x <= 1.0 ==> r == x
    ensures x <= 0.0 ==> r == 0.0
    ensures x >= 1.0 ==> r == 1.0
  {
    if x < 0.0 then 0.0 else if x > 1.0 then 1.0 else x
  }

  /** The factor a line contributes to the mask: `1 - lineFn(...)`, or 1 when
      the line is skipped. */
  function Factor(raw: seq<real>, i: nat): (f: real)
    requires i < |raw|
    ensures 0.0 <= f <= 1.0
    ensures Skipped(i) ==> f == 1.0
  {
    if Skipped(i) then 1.0 else 1.0 - Clamp01(raw[i])
  }

  /** Reference mask over the first `n` lines: the product of their factors. */
  function MaskOf(raw: seq<real>, n: nat): (m: real)
    requires n <= |raw|
    ensures 0.0 <= m <= 1.0
  {
    if n == 0 then 1.0
    else
      var prev := MaskOf(raw, n - 1);
      Scale(prev, Factor(raw, n - 1))
  }

  /** `main`'s loop over the lines, then `alpha = 1 - mask`. */
  method Composite(raw: seq<real>) returns (mask: real, alpha: real)
    requires |raw| == LineCount
    ensures mask == MaskOf(raw, LineCount)
    ensures 0.0 <= mask <= 1.0 && 0.0 <= alpha <= 1.0
    ensures alpha + mask == 1.0
  {
    mask := 1.0;
    var i := 0;
    while i < LineCount
      invariant 0 <= i <= LineCount
      invariant mask == MaskOf(raw, i)
    {
      var p := i as real / LineCount as real;
      if p < 0.01 || p > 0.99 {
        i := i + 1;
        continue;
      }
      mask := Scale(mask, 1.0 - Clamp01(raw[i]));
      i := i + 1;
    }
    alpha := 1.0 - mask;
  }

  /** `gl_FragColor = vec4(uColor * alpha, alpha)`: the colour premultiplied
      by alpha. */
  datatype Rgba = Rgba(r: real, g: real, b: real, a: real)

  function FragColor(color: Rgb, alpha: real): (c: Rgba)
    requires 0.0 <= alpha <= 1.0
    ensures c.a == alpha
    ensures 0.0 <= color.r ==> 0.0 <= c.r <= color.r
    ensures 0.0 <= color.g ==> 0.0 <= c.g <= color.g
    ensures 0.0 <= color.b ==> 0.0 <= c.b <= color.b
    ensures alpha == 0.0 ==> c == Rgba(0.0, 0.0, 0.0, 0.0)
    ensures alpha == 1.0 ==> c == Rgba(color.r, color.g, color.b, 1.0)
    ensures alpha > 0.0 ==> c.r / alpha == color.r && c.g / alpha == color.g && c.b / alpha == color.b
  {
    ScaleEnds(color.r, alpha);
    ScaleEnds(color.g, alpha);
    ScaleEnds(color.b, alpha);
    ScaleShare(color.r, alpha);
    ScaleShare(color.g, alpha);
    ScaleShare(color.b, alpha);
    Rgba(Scale(color.r, alpha), Scale(color.g, alpha), Scale(color.b, alpha), alpha)
  }

  /** The first line never shows: its coverage does not affect the mask. */
  lemma {:induction false} FirstLineIgnored(raw: seq<real>, x: real, n: nat)
    requires 0 < |raw| && n <= |raw|
    ensures MaskOf(raw[0 := x], n) == MaskOf(raw, n)
  {
    if n > 0 {
      FirstLineIgnored(raw, x, n - 1);
      if n - 1 == 0 {
        assert LinePosition(0) == 0.0;
      }
    }
  }

  /** A pixel no drawn line covers stays fully transparent. */
  lemma {:induction false} UncoveredIsTransparent(raw: seq<real>, n: nat)
    requires n <= |raw|
    requires forall i :: 0 <= i < n ==> raw[i] <= 0.0
    ensures MaskOf(raw, n) == 1.0
  {
    if n > 0 {
      UncoveredIsTransparent(raw, n - 1);
      ScaleEnds(1.0, Factor(raw, n - 1));
    }
  }

  /** A pixel some drawn line covers fully is fully opaque. */
  lemma {:induction false} FullCoverageIsOpaque(raw: seq<real>, n: nat, k: nat)
    requires k < n <= |raw| && !Skipped(k) && raw[k] >= 1.0
    ensures MaskOf(raw, n) == 0.0
  {
    if k < n - 1 {
      FullCoverageIsOpaque(raw, n - 1, k);
    } else {
      ScaleEnds(MaskOf(raw, k), Factor(raw, k));
    }
  }

  /** More coverage on any line never makes a pixel more transparent. */
  lemma {:induction false} CoverageMonotone(raw: seq<real>, raw': seq<real>, n: nat)
    requires |raw| == |raw'| && n <= |raw|
    requires forall i :: 0 <= i < |raw| ==> raw[i] <= raw'[i]
    ensures MaskOf(raw', n) <= MaskOf(raw, n)
  {
    if n > 0 {
      CoverageMonotone(raw, raw', n - 1);
      ScaleMonotone(MaskOf(raw, n - 1), MaskOf(raw', n - 1), Factor(raw, n - 1), Factor(raw', n - 1));
    }
  }
}

=== FILE: throttle.dfy ===
/** The `throttle` helper of the proximity text: a call is forwarded only
    while no timer is pending; forwarding starts a timer of `limit`
    milliseconds whose callback re-opens the gate. Calls made while the gate
    is closed are dropped, never queued. Time is an explicit input; the
    timer callback is an event of its own. */
module Throttle {
  import opened Wrappers

  /** Throttle windows used by the component: pointer samples and resizes. */
  const PointerLimit: real := 33.0
  const ResizeLimit: real := 200.0

  /** `inThrottle`, plus the time of the last forwarded call (the moment the
      pending timer was started). */
  datatype Gate = Gate(inThrottle: bool, lastForward: Option<real>)

  /** `let inThrottle: boolean;` starts out `undefined`, which reads as false. */
  const Initial := Gate(false, None)

  datatype Event = Call(t: real) | TimerFires(t: real)

  datatype Outcome = Outcome(gate: Gate, forwarded: bool)

  /** A call of the throttled function at time `t`. */
  function OnCall(g: Gate, t: real): (r: Outcome)
    ensures r.forwarded <==> !g.inThrottle
    ensures r.forwarded ==> r.gate.inThrottle && r.gate.lastForward == Some(t)
    ensures !r.forwarded ==> r.gate == g
  {
    if !g.inThrottle then Outcome(Gate(true, Some(t)), true) else Outcome(g, false)
  }

  /** The pending `setTimeout` callback: `inThrottle = false`. */
  function OnTimer(g: Gate): (r: Gate)
    ensures !r.inThrottle && r.lastForward == g.lastForward
  {
    g.(inThrottle := false)
  }

  /** One event: a call goes through the gate, a timer callback re-opens it. */
  function Step(g: Gate, e: Event): (r: Outcome)
    ensures r.forwarded ==> e.Call? && !g.inThrottle && r.gate == Gate(true, Some(e.t))
    ensures e.Call? && !r.forwarded ==> r.gate == g
    ensures e.TimerFires? ==> !r.forwarded && r.gate == Gate(false, g.lastForward)
  {
    match e
    case Call(t) => OnCall(g, t)
    case TimerFires(_) => Outcome(OnTimer(g), false)
  }

  /** What the event loop guarantees: events come in time order, and a timer
      callback runs only while its timer is pending and no earlier than
      `limit` milliseconds after it was started. */
  predicate Legal(limit: real, g: Gate, now: real, events: seq<Event>)
    decreases |events|
  {
    |events| == 0 ||
    (var e := events[0];
     && e.t >= now
     && (e.TimerFires? ==> g.inThrottle && g.lastForward.Some? && e.t >= g.lastForward.value + limit)
     && Legal(limit, Step(g, e).gate, e.t, events[1..]))
  }

  /** The times of the forwarded calls of an event sequence. */
  function Run(g: Gate, events: seq<Event>): (fs: seq<real>)
    ensures |fs| <= |events|
    ensures forall x :: x in fs ==> Call(x) in events
    decreases |events|
  {
    if |events| == 0 then []
    else
      var o := Step(g, events[0]);
      var rest := Run(o.gate, events[1..]);
      assert forall x :: x in rest ==> Call(x) in events[1..];
      if o.forwarded then [events[0].t] + rest else rest
  }

  /** What holds of the gate between events at time `now`. */
  predicate Inv(limit: real, g: Gate, now: real) {
    && (g.inThrottle ==> g.lastForward.Some?)
    && (!g.inThrottle && g.lastForward.Some? ==> now >= g.lastForward.value + limit)
  }

  /** Forwarded calls are at least `limit` apart, and at least `limit` after
      the last call forwarded before the sequence. */
  lemma {:induction false} ForwardedSpacing(limit: real, g: Gate, now: real, events: seq<Event>)
    requires limit >= 0.0
    requires Inv(limit, g, now) && Legal(limit, g, now, events)
    ensures g.lastForward.Some? ==> forall i :: 0 <= i < |Run(g, events)| ==> Run(g, events)[i] >= g.lastForward.value + limit
    ensures forall i, j :: 0 <= i < j < |Run(g, events)| ==> Run(g, events)[j] >= Run(g, events)[i] + limit
    decreases |events|
  {
    if |events| > 0 {
      var e := events[0];
      var o := Step(g, e);
      ForwardedSpacing(limit, o.gate, e.t, events[1..]);
      var rest := Run(o.gate, events[1..]);
      if o.forwarded {
        assert e.Call? && o.gate.lastForward == Some(e.t);
        var fs := [e.t] + rest;
        assert Run(g, events) == fs;
        assert g.lastForward.Some? ==> e.t >= g.lastForward.value + limit;
        forall i | 0 < i < |fs| ensures fs[i] >= e.t + limit {
          assert fs[i] == rest[i - 1];
        }
        forall i, j | 0 <= i < j < |fs| ensures fs[j] >= fs[i] + limit {
          if i > 0 { assert fs[i] == rest[i - 1] && fs[j] == rest[j - 1]; }
        }
      } else {
        assert o.gate.lastForward == g.lastForward;
        assert Run(g, events) == rest;
      }
    }
  }

  /** Any window of `limit` milliseconds holds at most one forwarded call. */
  lemma OnePerWindow(limit: real, events: seq<Event>, w: real, i: nat, j: nat)
    requires limit >= 0.0 && Legal(limit, Initial, 0.0, events)
    requires i < j < |Run(Initial, events)|
    requires w <= Run(Initial, events)[i] < w + limit
    ensures !(w <= Run(Initial, events)[j] < w + limit)
  {
    ForwardedSpacing(limit, Initial, 0.0, events);
  }

  /** With either window the component uses, forwarded calls are at least
      that window apart, and so never closer than `PointerLimit`. */
  lemma ComponentSpacing(limit: real, events: seq<Event>, i: nat, j: nat)
    requires limit == PointerLimit || limit == ResizeLimit
    requires Legal(limit, Initial, 0.0, events)
    requires i < j < |Run(Initial, events)|
    ensures Run(Initial, events)[j] - Run(Initial, events)[i] >= limit
    ensures Run(Initial, events)[j] - Run(Initial, events)[i] >= PointerLimit
  {
    ForwardedSpacing(limit, Initial, 0.0, events);
  }

  /** A call made while the gate is open is always forwarded: in particular the
      first call of all. Timer callbacks never forward anything. */
  lemma OpenGateForwards(g: Gate, e: Event, events: seq<Event>)
    requires !g.inThrottle && e.Call?
    ensures Run(g, [e] + events) == [e.t] + Run(Gate(true, Some(e.t)), events)
  {
    assert ([e] + events)[1..] == events;
  }

  /** A call made while the gate is closed is dropped, and nothing of it
      remains: the rest runs exactly as if the call had not been made. */
  lemma ClosedGateDrops(g: Gate, t: real, events: seq<Event>)
    requires g.inThrottle
    ensures Run(g, [Call(t)] + events) == Run(g, events)
  {
    assert ([Call(t)] + events)[1..] == events;
  }
}

=== FILE: wrappers.dfy ===
/** The optional-value datatype used throughout the model, standing for a
    JavaScript value that may be `undefined` or `null`. */
module Wrappers {

  datatype Option<+T> = None | Some(value: T) {

    /** The `??` operator: the wrapped value, or `default` when absent. */
    function GetOr(default: T): T {
      match this
      case Some(v) => v
      case None => default
    }
  }
}
